=== FILE: README.md ===
# IPTC and XMP display of jhead, modelled in Dafny

This project models `iptc.c` of jhead, the part of the program that shows
the IPTC and XMP metadata of a JPEG file. It covers three routines:

- `show_IPTC` walks the Photoshop resource blocks of an APP13 segment
  (`Photoshop 3.0`, `8BIM`, block id `04 04`), skips the IPTC header, and
  reads the IIM records (`1C 02` type length data, optionally preceded by a
  `1C 01` envelope declaring UTF-8). It prints one line per known record
  type. Structural problems end the parse with "Pointer corruption" or a
  signature mismatch.
- `UTF8_to_Char` is the lossy UTF-8 to 8-bit transcoder used for records
  after a UTF-8 envelope.
- `ShowXmp` is the printable-text dump of an XMP packet. It cuts lines of at
  most 100 characters and suppresses runs of blank lines.

Everything is pure functions over byte sequences. The lines `printf`/`puts`
would write are returned as strings. How a parse ends is an `Outcome`
(`Ok`, `Corrupt`, `BadSig`, `Overflow`), and `Iptc.Diagnostics` gives the
message `ErrNonfatal` reports for it.

Modules, one file each:

- `Bytes` (`bytes.dfy`): bytes, zero-filled reads, C string helpers, `%d`.
- `Utf8` (`utf8.dfy`): `UTF8_to_Char`.
- `TagCatalog` (`tag_catalog.dfy`): the label table and `TempBuf` captions.
- `Iptc` (`iptc.dfy`): `show_IPTC`. It contains the sibling-block loop, the
  header skip, the record loop, and the `switch` and the printing.
- `IptcRecords` (`iptc_records.dfy`): an encoder for IIM records and the
  round trip of the record loop.
- `IptcSegment` (`iptc_segment.dfy`): an encoder for whole segments and the
  round trip of `show_IPTC`.
- `Xmp` (`xmp.dfy`): `ShowXmp`, plus a reference reading of it without the
  bit flag.

## Behaviour reproduced from the code

In these places the model follows the code as written:

- XMP bytes 32..127 are copied, so DEL (127) counts as printable.
- The UTF-8 flag is declared inside the record loop. An envelope therefore
  affects only the record read in the same iteration, not every later one
  (`IptcRecords.EnvelopeScope`).

Other behaviour of the code that the model keeps as written:

- Three-byte UTF-8 sequences combine the third and the fifth byte from the
  lead, not the second and third (`Utf8.ThreeByteBits`).
- A stray continuation byte moves the input cursor but is not counted. The
  loop therefore runs past `strlen` and reads the zero tail
  (`Utf8.FourByteLead`, `Utf8.GrinningFaceThenLetter`).
- A lead byte of `F8` or above writes nothing, and its slot keeps the 0 the
  caller put there (`Utf8.InvalidLead`). `%s` stops at that 0, so the rest
  of the field is not shown (`Utf8.InvalidLeadEndsText`,
  `Utf8.InvalidLeadHidesRest`).
- The table labels type `0x2D` "Country Code" and type `0x64` "Ref. Service",
  the opposite of their `#define` names.
- The sibling loop reads only the low byte of a block's 4-byte size
  (`IptcSegment.LargeBlockMisread`).
- The record loop needs more than five bytes left. A record with empty data
  is read when something follows it (`IptcRecords.EmptyRecordThenCaption`),
  but not when it ends the segment.
- An IPTC block with no record area at all is reported as corrupt
  (`Iptc.IptcSection`).
- The banner `======= IPTC data: =======` is printed before the first record
  is read.
- In the XMP dump, an empty line that follows a line with content is still
  printed (`Xmp.EmptyLineAfterContent`).

## Model

| member | source | states |
|---|---|---|
| Bytes.Word | iptc.c:171 | A big-endian 16-bit field is below 65536, and its high and low bytes are recovered by `/ 256` and `% 256`. |
| Bytes.UpToZero | iptc.c:249-251 | The text `%s` shows is the longest prefix without a zero byte. It is followed by a zero or by the end of the buffer. |
| Bytes.FirstZero | iptc.c:48 | `strlen`: the count of bytes before the first zero, or the whole length when there is none. |
| Bytes.Decimal | iptc.c:201 | `%d` writes a numeral: at least one digit, digits only, no leading zero unless the value is 0. |
| Bytes.DecimalRoundTrip | iptc.c:201 | Reading back the digits `%d` prints gives the number. |
| Utf8.Classify | iptc.c:50-67 | The five mask tests split the bytes into ASCII `< 0x80`, continuation `80..BF`, two-byte lead `C0..DF`, three-byte lead `E0..EF`, four-byte lead `F0..F7`, and the rest. |
| Utf8.ClassifyMasks | iptc.c:50-67 | The value classification agrees with the C's `&` tests on every byte. |
| Utf8.TwoByteBits | iptc.c:59-60 | Truncating `(lead & 31) << 6` to the 8-bit slot keeps only the lead's low two payload bits. |
| Utf8.TwoByte | iptc.c:59-60 | The two-byte case stores the low 8 bits of the code point the sequence denotes. |
| Utf8.TwoByteMasks | iptc.c:59-60 | The C's slot arithmetic stores exactly `TwoByte`. |
| Utf8.ThreeByteBits | iptc.c:64-66 | The lead's bits are shifted out of the slot; only the third byte's low two bits and the fifth byte's low six remain. |
| Utf8.ThreeByteMasks | iptc.c:64-66 | The C's slot arithmetic stores exactly `ThreeByte`. |
| Utf8.PackBits | iptc.c:60 | ORing the shifted high bits with `& 63` is the sum of the two bit fields. |
| Utf8.Pass | iptc.c:49-73 | One loop pass consumes 1 to 3 bytes. A continuation byte emits nothing and counts nothing. Every other byte emits one slot and counts the bytes it consumed. |
| Utf8.Transcode | iptc.c:49-73 | The loop never writes more slots than the count still allowed. |
| Utf8.Utf8ToChar | iptc.c:43-74 | At most `strlen(buf)` destination slots are written. |
| Utf8.TranscodeAscii | iptc.c:50-52 | Bytes 1..127 are copied one for one. |
| Utf8.AsciiIdentity | iptc.c:50-52 | Pure 7-bit text comes out unchanged. |
| Utf8.TranscodeAgree | iptc.c:49-73 | The result depends only on what the zero-filled reads return. |
| Utf8.StagingIrrelevant | iptc.c:245-248 | Staging the field in a zero-filled buffer gives the same result as the field alone. |
| Utf8.TranscodePastEnd | iptc.c:49-73 | Past the end of the buffer each counted byte yields a 0 slot. |
| Utf8.SkipContinuations | iptc.c:53-55 | Wherever the loop stands, a run of continuation bytes produces no slot and leaves the count unchanged. What follows is transcoded as if the run were not there. |
| Utf8.AsciiInText | iptc.c:50-52 | Bytes 1..127 are copied one for one wherever the text goes on after them, and that text is transcoded with the count they leave. |
| Utf8.InvalidLead | iptc.c:50-72 | A lead byte `F8`..`FF` matches no test: it counts one byte and leaves its slot at the caller's 0; the rest is transcoded as if on its own. |
| Utf8.InvalidLeadEndsText | iptc.c:43-74 | After 7-bit text, a lead byte `F8`..`FF` leaves a 0 slot, so `%s` shows the text before it and nothing after it. |
| Utf8.InvalidLeadHidesRest | iptc.c:43-74 | `41 FF 42` gives the slots `A`, 0, `B`, and only `A` is shown. |
| Utf8.TwoByteSequence | iptc.c:56-60 | `110xxxxx 10yyyyyy` yields the code point modulo 256, and the following text is transcoded as if on its own. |
| Utf8.LatinSmallEAcute | iptc.c:56-60 | `C3 A9` yields the single byte `E9`. |
| Utf8.FourByteFirstPass | iptc.c:67-72 | A four-byte lead writes `'?'` and counts one byte. |
| Utf8.FourByteInText | iptc.c:53-72 | Inside a text, a four-byte lead and its continuation bytes give `'?'`. The text after them is then transcoded with a count that still includes the skipped continuation bytes, so the loop runs that many slots past its end. |
| Utf8.LetterThenPastEnd | iptc.c:49-73 | A nonzero ASCII byte with a count of four gives the byte, then three zero slots past the end. |
| Utf8.GrinningFaceThenLetter | iptc.c:43-74 | U+1F600 (`F0 9F 98 80`) followed by an ASCII letter gives `'?'`, the letter, then three zero slots. |
| Utf8.FourByteLead | iptc.c:67-72 | A four-byte lead gives `'?'`. Its continuation bytes give only zero slots, so the text shown is `"?"`. |
| Utf8.ThreeByteSequence | iptc.c:61-66 | A three-byte lead consumes three bytes and stores a byte built from the third and the fifth. The following text is transcoded as if on its own. |
| Utf8.EuroSignAsWritten | iptc.c:61-66 | `E2 82 AC` comes out as a single 0 slot, so nothing is shown. |
| TagCatalog.Label | iptc.c:204-227 | Exactly the 24 listed types have a label. Each label is 1 to 30 characters, so it fits `TempBuf`. |
| TagCatalog.LabelsDistinct | iptc.c:204-227 | Different types never share a label. |
| TagCatalog.RecordVersionUnlabelled | iptc.c:200-202 | Type 0 has no label; it is printed as a version number instead. |
| TagCatalog.CountryCodeAndReferenceServiceSwapped | iptc.c:223-224 | Type 0x2D is shown as "Country Code" and type 0x64 as "Ref. Service". |
| TagCatalog.Caption | iptc.c:239-242 | The caption is the label, padded with spaces to 14 columns when shorter, then `':'`. |
| Iptc.SiblingHeaderSkip | iptc.c:121 | The skip is even and equals header length plus one, rounded up to even. |
| Iptc.SiblingHeaderMask | iptc.c:121 | `(h & 0xfe) + 2` is that skip for every byte `h`. |
| Iptc.IptcHeaderSkip | iptc.c:144-145 | `h + 1 - h % 2`, with the length byte, is the same padded size as the sibling skip. |
| Iptc.SiblingStep | iptc.c:116-135 | One pass either stops at a `04 04` id where it stands, or stops with Corrupt or BadSig, or advances at least 12 bytes within the segment. |
| Iptc.SkipSiblings | iptc.c:116-135 | The loop ends at a `04 04` id at or after its start, or with Corrupt or BadSig. When each of these happens is stated by `IptcSegment.SkipBlocks`, `IptcSegment.BadBlockTrailer` and `IptcSegment.LargeBlockMisread`. |
| Iptc.ShowIptc | iptc.c:95-135 | A segment shorter than 25 bytes is corrupt. A wrong `Photoshop 3.0` or `8BIM` signature is a silent BadSig. When the sibling loop stops, nothing is printed and its outcome is the result. Any output starts with the banner, and an Ok parse always prints it. |
| Iptc.IptcSection | iptc.c:137-154 | When the id ends the segment, or the header and the 4-byte length leave no byte for the records, the section is Corrupt with nothing printed. Otherwise output starts with the banner, and an Ok parse always prints it. |
| Iptc.ReadHead | iptc.c:171-189 | The UTF-8 flag is set exactly when the record starts with the `1C 01` envelope signature, and it moves the data record 8 bytes on. A read record's data lies inside the segment. Failures are Corrupt or BadSig. |
| Iptc.DataHead | iptc.c:191-197 | The loop ends exactly when the signature is neither `1C01` nor `1C02`. Data running past the end is Corrupt. |
| Iptc.VersionLine | iptc.c:201 | The line is `Record vers.  : ` followed by a numeral that reads back as the version. |
| Iptc.UnknownLine | iptc.c:231 | The line is `Unrecognised IPTC tag: ` followed by a numeral that reads back as the record type. |
| Iptc.TagLine | iptc.c:249-251 | The line is the caption, a space, then one character per byte of the text up to its first zero; its length is the caption's plus one plus `strlen` of the text. |
| Iptc.Render | iptc.c:199-251 | A version and an unrecognised type print their prefix and a numeral that reads back as the number. A labelled text prints its caption, a space, then one character per byte of the text up to its first zero, after the UTF-8 conversion when the record asked for it. |
| Iptc.Entry | iptc.c:199-254 | A labelled record shows its own data under its label, zero-padded to 255 bytes when UTF-8. An unknown type shows nothing, or its number with `ShowTags`. A version record shows the big-endian value of its first two bytes. The only aborts are a version record whose two bytes leave the segment (Corrupt) and a UTF-8 field of 255 bytes or more (Overflow). |
| Iptc.RecordIteration | iptc.c:163-255 | A pass that continues moves past the 5-byte header, stays inside the segment, and shows at most one item. |
| Iptc.Records | iptc.c:162-256 | With five bytes or fewer left, the loop ends Ok with nothing shown. An Overflow needs room for an envelope and a 255-byte field. |
| Iptc.Diagnostics | iptc.c:258-259 | Corruption is always reported. A signature mismatch is reported only with `ShowTags`, as at iptc.c:129-131. |
| IptcRecords.EncodeTag | iptc.c:88-92 | A record is 5 header bytes plus its data. |
| IptcRecords.RecordIterationOfTag | iptc.c:163-255 | One encoded record is read back in one pass as its item, and the cursor lands right after it. |
| IptcRecords.RecordStep | iptc.c:162-256 | The loop shows an encoded record's item and carries on after it. |
| IptcRecords.OtherSignatureEndsLoop | iptc.c:191 | Any signature other than `1C01` and `1C02` ends the loop with Ok and nothing shown, whatever follows it. |
| IptcRecords.OtherLeadByte | iptc.c:191 | A first byte other than `1C` is such a signature. |
| IptcRecords.LoopEnds | iptc.c:162-191 | Too few bytes left, or any signature other than `1C01` and `1C02`, ends the loop with Ok and nothing shown. |
| IptcRecords.RecordsOfTags | iptc.c:162-256 | Round trip: a run of encoded records is shown as each record's item, in order, ending Ok. The last record needs data or a byte after it for the loop guard to let it in. |
| IptcRecords.EmptyRecordThenCaption | iptc.c:162-197 | An empty caption followed by the caption `A` is read as both captions, ending Ok. |
| IptcRecords.EnvelopeHead | iptc.c:175-189 | An envelope naming `ESC % G` followed by a record reads as that record with the UTF-8 flag. |
| IptcRecords.Utf8Entry | iptc.c:244-248 | A labelled UTF-8 record is staged in a zero-filled 255-byte buffer. |
| IptcRecords.Utf8Line | iptc.c:244-249 | The printed UTF-8 line is the caption followed by the transcoded field alone. |
| IptcRecords.EnvelopeIteration | iptc.c:175-255 | An envelope and its record are consumed in one pass and shown as one transcoded item. |
| IptcRecords.EnvelopeScope | iptc.c:167 | The UTF-8 flag covers only the record after the envelope. The records after that are shown untranscoded. |
| IptcRecords.LengthPastEnd | iptc.c:197 | A record length running past the segment ends the parse as Corrupt. |
| IptcRecords.EnvelopeWrongType | iptc.c:180 | An envelope not naming the coded character set is a BadSig. |
| IptcRecords.UnknownTag | iptc.c:229-233 | An unknown type shows nothing, or one line "Unrecognised IPTC tag: n" with `ShowTags`. |
| IptcSegment.BlockStep | iptc.c:116-135 | One pass steps over exactly one encoded resource block. |
| IptcSegment.SkipBlocks | iptc.c:116-135 | The sibling loop steps over every block and stops at the IPTC id that follows them. |
| IptcSegment.BadBlockTrailer | iptc.c:128-133 | A block whose size is read correctly but which is not followed by `8BIM` ends the sibling loop with BadSig. |
| IptcSegment.LargeBlockMisread | iptc.c:123-126 | A 256-byte block with its true size `00 00 01 00` is read as size 0 and gives BadSig. |
| IptcSegment.SectionOfRecords | iptc.c:137-154 | After the id, the padded header and the 4-byte length are skipped, the banner is printed, and the records follow. |
| IptcSegment.WellFormedSegment | iptc.c:95-256 | Round trip: a well-formed segment with at least one record, the last one holding data, prints the banner and every record's line and ends Ok, whatever its length fields hold. |
| IptcSegment.RecordVersionTwo | iptc.c:200-202 | The minimal segment holding version `00 02` prints the banner and "Record vers.  : 2". |
| IptcSegment.ShortSegment | iptc.c:106 | A segment under 25 bytes prints nothing and reports pointer corruption. |
| Xmp.Glyph | iptc.c:280-287 | A byte adds itself when in 32..127 and `'?'` otherwise. A newline adds nothing. |
| Xmp.FlagBits | iptc.c:282-292 | The flag updates are `NonBlank \|= 1` and `(NonBlank & 1) << 1`. |
| Xmp.Step | iptc.c:280-295 | One byte keeps the line under 100 printable characters and the flag within 0..3. It prints at most the completed line. |
| Xmp.Scan | iptc.c:279-296 | Throughout the scan the partial line stays under 100 characters, the flag stays within 0..3, and every printed line is valid. |
| Xmp.ShowXmp | iptc.c:267-297 | Every printed line has at most 100 characters, all in 32..127, so none contains a newline. |
| Xmp.ScanMatchesLines | iptc.c:279-296 | The two flag bits are "this line has content" and "the previous flushed line had content". The printed lines are those the reference rule keeps. |
| Xmp.ShowXmpKept | iptc.c:288-293 | A flushed line is printed iff it, or the line flushed just before it, holds a non-space printable byte. |
| Xmp.PartialLineNotPrinted | iptc.c:288 | A trailing line without a newline that stays under 100 characters is never printed. |
| Xmp.BlankLineSuppressed | iptc.c:288-293 | Two spaces and a newline print nothing. |
| Xmp.SingleLinePrinted | iptc.c:288-293 | `A` and a newline print the single line `A`. |
| Xmp.EmptyLineAfterContent | iptc.c:288-293 | After a line with content, an empty line is still printed once. |

## Left out

- Output: `printf`, `puts` and `ErrNonfatal` are not performed. Printed lines are returned, and `Iptc.Diagnostics` gives the message for an outcome.
- The global `ShowTags` is a parameter.
- Locating the APP13 and XMP sections in the JPEG file is not modelled. `Section_t` and `jhead.h` are not part of this model; `ShowXmp` takes the section's bytes.
- Iptc.ReadHead: the C keeps `length` in a `short`, so lengths from `0x8000` on become negative and can move the cursor backwards. The model reads the length as an unsigned 16-bit value.
- Iptc.TagLine: the `%*.*s` width is not modelled. When the data holds a zero byte, `printf` pads the shorter text on the left with spaces to `length` columns; the model shows the text up to the zero without padding.
- Iptc.Entry: a UTF-8 field of 255 bytes or more overruns or unterminates the 255-byte `Temp2Buf` in the C. The model stops with the `Overflow` outcome instead.
- Iptc.SiblingStep: the C reads the block id, header length, size byte and `8BIM` without bounds checks. The model ends with `Corrupt` where such a read would leave the segment.
- Iptc.ReadHead: the loop guard of iptc.c:162 covers only six bytes from the record start. After a `1C 01` envelope, the C reads the rest of `ESC % G`, the next signature, and that record's type and length (iptc.c:182-196) without bounds checks. The model ends with `Corrupt` when one of these reads would leave the segment.
- Iptc.Entry: a version record shorter than two bytes is read past its data in the C. The model ends with `Corrupt` when that read leaves the segment.
- Utf8.Pass: reads past the 255-byte staging buffer yield 0 in the model; the C reads adjacent memory. They happen whenever the loop reaches index 255, which stray continuation bytes or a multi-byte lead at the end of a long field can cause.
- The check at iptc.c:169 is not repeated: the loop guard at iptc.c:162 already guarantees the bytes it checks.
- The C stores the record signature in a `short`. Values from `0x8000` on become negative, but they still differ from `1C01` and `1C02`, so nothing changes.
- The 4-byte data length of the IPTC block (iptc.c:150) is never decoded, in the C or in the model.

=== FILE: bytes.dfy ===
/** Bytes, zero-padded C buffers and the text conversions shared by the
    IPTC and XMP readers of iptc.c. */
module Bytes {

  /** An `unsigned char`. */
  type byte = x: int | 0 <= x < 256

  datatype Option<T> = None | Some(value: T)

  /** The byte at index `i` of a buffer whose tail is zero-filled: a read past
      the end of `buf` yields 0. */
  function At(buf: seq<byte>, i: nat): byte
  {
    if i < |buf| then buf[i] else 0
  }

  /** The buffer from `k` bytes further on; nothing is left past the end. */
  function Drop(buf: seq<byte>, k: nat): (r: seq<byte>)
    ensures |r| == if k <= |buf| then |buf| - k else 0
    ensures forall i: nat :: At(r, i) == At(buf, k + i)
  {
    if k <= |buf| then buf[k..] else []
  }

  /** Two buffers from which every zero-filled read returns the same byte. */
  ghost predicate Agree(x: seq<byte>, y: seq<byte>)
  {
    forall i: nat :: At(x, i) == At(y, i)
  }

  lemma DropAgree(x: seq<byte>, y: seq<byte>, k: nat)
    requires Agree(x, y)
    ensures Agree(Drop(x, k), Drop(y, k))
  {
    forall i: nat
      ensures At(Drop(x, k), i) == At(Drop(y, k), i)
    {
      assert At(x, k + i) == At(y, k + i);
    }
  }

  /** Zero padding reads like the end of the buffer. */
  lemma PaddingAgrees(s: seq<byte>, n: nat)
    ensures Agree(s + Zeros(n), s)
  {
    forall i: nat
      ensures At(s + Zeros(n), i) == At(s, i)
    {
      if |s| <= i < |s| + n {
        assert (s + Zeros(n))[i] == Zeros(n)[i - |s|];
      }
    }
  }

  /** `n` zero bytes, as `memset(buf, 0, n)` leaves them. */
  function Zeros(n: nat): (z: seq<byte>)
    ensures |z| == n
    ensures forall i :: 0 <= i < n ==> z[i] == 0
  {
    seq(n, _ => 0 as byte)
  }

  /** The bytes of `data` from `pos` on begin with `s`. */
  predicate Holds(data: seq<byte>, pos: nat, s: seq<byte>)
  {
    pos + |s| <= |data| && data[pos..pos + |s|] == s
  }

  /** A part of a window known to hold `s`. */
  lemma Window(data: seq<byte>, pos: nat, s: seq<byte>, i: nat, j: nat)
    requires Holds(data, pos, s) && i <= j <= |s|
    ensures data[pos + i..pos + j] == s[i..j]
  {
    forall k | 0 <= k < j - i
      ensures data[pos + i..pos + j][k] == s[i..j][k]
    {
      assert data[pos + i + k] == data[pos..pos + |s|][i + k];
    }
  }

  /** A window holding `a + b` is a window holding `a` followed by one holding `b`. */
  lemma SplitWindow(data: seq<byte>, pos: nat, a: seq<byte>, b: seq<byte>)
    requires Holds(data, pos, a + b)
    ensures Holds(data, pos, a)
    ensures Holds(data, pos + |a|, b)
  {
    Window(data, pos, a + b, 0, |a|);
    assert (a + b)[..|a|] == a;
    Window(data, pos, a + b, |a|, |a| + |b|);
    assert (a + b)[|a|..] == b;
  }

  /** A byte of a window known to hold `s`. */
  lemma WindowAt(data: seq<byte>, pos: nat, s: seq<byte>, i: nat)
    requires Holds(data, pos, s) && i < |s|
    ensures data[pos + i] == s[i]
  {
    assert data[pos + i] == data[pos..pos + |s|][i];
  }

  /** Every sequence holds itself at position 0. */
  lemma HoldsWhole(data: seq<byte>)
    ensures Holds(data, 0, data)
  {
    assert data[0..|data|] == data;
  }

  /** A window inside a window: `s` at `i` in `outer`, which sits at `pos`,
      sits at `at` in `data`. */
  lemma Nested(data: seq<byte>, pos: nat, outer: seq<byte>, i: nat, s: seq<byte>, at: nat)
    requires Holds(data, pos, outer) && Holds(outer, i, s) && at == pos + i
    ensures Holds(data, at, s)
  {
    Window(data, pos, outer, i, i + |s|);
  }

  /** `strlen`: the index of the first zero byte, or `|s|` when there is none. */
  function FirstZero(s: seq<byte>): (n: nat)
    ensures n <= |s|
    ensures forall i :: 0 <= i < n ==> s[i] != 0
    ensures n < |s| ==> s[n] == 0
  {
    if |s| == 0 || s[0] == 0 then 0 else 1 + FirstZero(s[1..])
  }

  /** The bytes a C string routine sees: everything before the first zero. */
  function UpToZero(s: seq<byte>): (t: seq<byte>)
    ensures |t| <= |s| && t == s[..|t|]
    ensures forall i :: 0 <= i < |t| ==> t[i] != 0
    ensures |t| < |s| ==> s[|t|] == 0
  {
    s[..FirstZero(s)]
  }

  /** A big-endian 16-bit field, `(*p << 8) + *(p + 1)`. */
  function Word(hi: byte, lo: byte): (v: nat)
    ensures v < 0x1_0000
    ensures v / 256 == hi && v % 256 == lo
  {
    hi * 256 + lo
  }

  /** A byte printed by `printf("%s")` or `puts`: the character with that code. */
  function ToChar(b: byte): char
  {
    b as char
  }

  function ToText(s: seq<byte>): (t: string)
    ensures |t| == |s|
    ensures forall i :: 0 <= i < |s| ==> t[i] == ToChar(s[i])
  {
    seq(|s|, i requires 0 <= i < |s| => ToChar(s[i]))
  }

  /** The bytes of a C string literal (all of its characters are below 256). */
  function Ascii(s: string): (b: seq<byte>)
    ensures |b| == |s|
  {
    seq(|s|, i requires 0 <= i < |s| => (s[i] as int % 256) as byte)
  }

  function DigitChar(d: nat): char
    requires d < 10
  {
    ('0' as int + d) as char
  }

  /** A decimal numeral as `%d` writes it: digits only, and no leading zero
      unless the numeral is `0` itself. */
  predicate Numeral(s: string)
  {
    1 <= |s| && (forall i :: 0 <= i < |s| ==> '0' <= s[i] <= '9') && (|s| == 1 || s[0] != '0')
  }

  /** `printf("%d")` of a non-negative value: decimal digits, no leading zero. */
  function Decimal(n: nat): (s: string)
    ensures 1 <= |s|
    ensures forall i :: 0 <= i < |s| ==> '0' <= s[i] <= '9'
    ensures s[0] == '0' ==> n == 0
    ensures Numeral(s)
    decreases n
  {
    if n < 10 then [DigitChar(n)] else Decimal(n / 10) + [DigitChar(n % 10)]
  }

  /** The value a string of decimal digits denotes (its reader, `atoi`). */
  function DigitsValue(s: string): nat
    requires forall i :: 0 <= i < |s| ==> '0' <= s[i] <= '9'
  {
    if |s| == 0 then 0
    else DigitsValue(s[..|s| - 1]) * 10 + (s[|s| - 1] as int - '0' as int)
  }

  /** Reading back what `%d` printed gives the number. */
  lemma {:induction false} DecimalRoundTrip(n: nat)
    ensures DigitsValue(Decimal(n)) == n
    decreases n
  {
    if n >= 10 {
      var s := Decimal(n);
      assert s[..|s| - 1] == Decimal(n / 10);
      DecimalRoundTrip(n / 10);
    }
  }
}

=== FILE: iptc.dfy ===
/** `show_IPTC` (iptc.c:95-260): the Photoshop "8BIM" wrapper and the IPTC-IIM
    records inside it.

    The segment is `data`, its length the C `itemlen`; the cursor is an index
    into it. The C reads several fields without checking them against the end
    of the segment; here every read is checked and one that would fall past
    the end stops the parse with `Corrupt`. What the C prints with `printf` is
    returned as `lines`, in order, together with how the parse ended. */
module Iptc {
  import opened Bytes
  import Utf8
  import opened TagCatalog

  /** How a parse ends. `Overflow` stands for a UTF-8 field too long for the
      255-byte staging buffer of iptc.c:237, where the C would overrun it. */
  datatype Outcome = Ok | Corrupt | BadSig | Overflow

  datatype Report = Report(lines: seq<string>, outcome: Outcome)

  const MinSegment: nat := 25
  const PhotoshopSig: seq<byte> := Ascii("Photoshop 3.0")
  const Bim: seq<byte> := Ascii("8BIM")
  const IptcBlockId: seq<byte> := [0x04, 0x04]
  /** `ESC % G`: ISO 2022 designation of UTF-8. */
  const Utf8Escape: seq<byte> := [0x1B, 0x25, 0x47]
  const EnvelopeSig: nat := 0x1C01
  const DataSig: nat := 0x1C02
  const CodedCharacterSet: byte := 0x5A
  const StagingSize: nat := 255
  const Banner: string := "======= IPTC data: ======="

  /** `x + 1` rounded up to an even number: a header padded to even length,
      counting its length byte. */
  function RoundUpEven(x: nat): nat
  {
    x + x % 2
  }

  /** The skip of iptc.c:121, from the header-length byte: `(h & 0xfe) + 2`,
      the mask clearing the low bit. */
  function SiblingHeaderSkip(h: byte): (n: nat)
    ensures n == RoundUpEven(h + 1)
    ensures n % 2 == 0 && h + 1 <= n <= h + 2
  {
    h - h % 2 + 2
  }

  lemma LowBit(x: bv8)
    ensures (x & 1) as int == x as int % 2
  {
  }

  lemma SplitLowBit(x: bv8)
    ensures x == (x & 0xFE) | (x & 1)
  {
  }

  lemma OrLowBit(x: bv8, y: bv8)
    requires x & 1 == 0 && y < 2
    ensures (x | y) as int == x as int + y as int
  {
  }

  /** `SiblingHeaderSkip` is the C's masked value on every byte. */
  lemma SiblingHeaderMask(x: bv8)
    ensures SiblingHeaderSkip(x as int) == (x & 0xFE) as int + 2
  {
    LowBit(x);
    SplitLowBit(x);
    OrLowBit(x & 0xFE, x & 1);
  }

  /** The skip of iptc.c:145, from after the header-length byte:
      `h + 1 - h % 2`. With the length byte it is the same padded size. */
  function IptcHeaderSkip(h: byte): (n: nat)
    ensures 1 + n == RoundUpEven(h + 1)
    ensures 1 + n == SiblingHeaderSkip(h)
  {
    h + 1 - h % 2
  }

  datatype Cursor = Found(pos: nat) | Stop(outcome: Outcome)

  /** What one pass of a loop body leaves: the cursor for the next pass, or
      the end of the loop. */
  datatype Step = Advance(next: nat) | Finish(cursor: Cursor)

  /** One pass of the loop body of iptc.c:116-135 at a block id: skip the
      id, the padded header and three bytes of the 4-byte size, then as many
      data bytes as its last byte says, and expect `8BIM` after them. */
  function SiblingStep(data: seq<byte>, pos: nat): (s: Step)
    ensures s.Advance? ==> pos + 12 <= s.next <= |data|
    ensures s.Finish? && s.cursor.Found? ==> s.cursor.pos == pos
    ensures s.Finish? && s.cursor.Stop? ==> s.cursor.outcome == Corrupt || s.cursor.outcome == BadSig
  {
    if pos + 2 > |data| then Finish(Stop(Corrupt))
    else if data[pos..pos + 2] == IptcBlockId then Finish(Found(pos))
    else
      var hp := pos + 2;
      if hp >= |data| then Finish(Stop(Corrupt))
      else
        var lp := hp + SiblingHeaderSkip(data[hp]) + 3;
        if lp >= |data| then Finish(Stop(Corrupt))
        else
          var next := lp + 1 + data[lp];
          if next + 4 > |data| then Finish(Stop(Corrupt))
          else if data[next..next + 4] != Bim then Finish(Stop(BadSig))
          else Advance(next + 4)
  }

  /** The loop of iptc.c:116-135: skip resource blocks until the block id
      `04 04`. */
  function SkipSiblings(data: seq<byte>, pos: nat): (c: Cursor)
    ensures c.Found? ==> pos <= c.pos && c.pos + 2 <= |data| && data[c.pos..c.pos + 2] == IptcBlockId
    ensures c.Stop? ==> c.outcome == Corrupt || c.outcome == BadSig
    decreases |data| - pos
  {
    match SiblingStep(data, pos)
    case Finish(c) => c
    case Advance(next) => SkipSiblings(data, next)
  }

  /** `show_IPTC(Data, itemlen)` with `ShowTags` as a parameter. */
  function ShowIptc(data: seq<byte>, showTags: bool): (r: Report)
    ensures |data| < MinSegment ==> r == Report([], Corrupt)
    ensures |data| >= MinSegment ==>
      (data[2..15] != PhotoshopSig || data[16..20] != Bim) ==> r == Report([], BadSig)
    ensures |data| >= MinSegment && data[2..15] == PhotoshopSig && data[16..20] == Bim ==>
      SkipSiblings(data, 20).Stop? ==> r == Report([], SkipSiblings(data, 20).outcome)
    ensures r.lines != [] ==> r.lines[0] == Banner
    ensures r.outcome == Ok ==> r.lines != []
  {
    if |data| < MinSegment then Report([], Corrupt)
    else if data[2..15] != PhotoshopSig then Report([], BadSig)
    else if data[16..20] != Bim then Report([], BadSig)
    else match SkipSiblings(data, 20)
      case Stop(o) => Report([], o)
      case Found(pos) => IptcSection(data, pos + 2, showTags)
  }

  /** iptc.c:137-154: from just past the `04 04` id, skip the padded header
      and the 4-byte data length (never decoded), print the banner and read
      the records. */
  function IptcSection(data: seq<byte>, pos: nat, showTags: bool): (r: Report)
    ensures r.lines != [] ==> r.lines[0] == Banner
    ensures r.outcome == Ok ==> r.lines != []
    ensures pos >= |data| || pos + 1 + IptcHeaderSkip(data[pos]) + 4 >= |data| ==> r == Report([], Corrupt)
  {
    if pos >= |data| then Report([], Corrupt)
    else
      var start := pos + 1 + IptcHeaderSkip(data[pos]);
      if start + 4 >= |data| then Report([], Corrupt)
      else
        var rest := Records(data, start + 4, showTags);
        Report([Banner] + RenderAll(rest.items), rest.outcome)
  }

  /** A record header as one iteration of iptc.c:162-197 reads it. */
  datatype Head =
    | Record(utf8: bool, kind: byte, length: nat, start: nat)
    | End
    | Fail(outcome: Outcome)

  /** The signature, the optional envelope record and the data record's type
      and length. The loop guard guarantees six bytes, so the check of
      iptc.c:169 cannot fail and is not repeated. */
  function ReadHead(data: seq<byte>, pos: nat): (h: Head)
    requires pos + 5 < |data|
    ensures h.Record? ==> h.start == pos + 5 + (if h.utf8 then 8 else 0)
    ensures h.Record? ==> h.start + h.length <= |data| && h.length < 0x1_0000
    ensures h.Fail? ==> h.outcome == Corrupt || h.outcome == BadSig
    ensures h.Record? ==> (h.utf8 <==> data[pos] == 0x1C && data[pos + 1] == 0x01)
  {
    var sig := Word(data[pos], data[pos + 1]);
    if sig == EnvelopeSig then
      if data[pos + 2] != CodedCharacterSet then Fail(BadSig)
      else if pos + 8 > |data| then Fail(Corrupt)
      else if data[pos + 5..pos + 8] != Utf8Escape then Fail(BadSig)
      else if pos + 10 > |data| then Fail(Corrupt)
      else DataHead(data, Word(data[pos + 8], data[pos + 9]), true, pos + 10)
    else DataHead(data, sig, false, pos + 2)
  }

  /** iptc.c:191-197: any signature but `1C01`/`1C02` ends the loop; otherwise
      the type byte and big-endian length follow, and the data must fit. */
  function DataHead(data: seq<byte>, sig: nat, utf8: bool, p: nat): (h: Head)
    ensures h.Record? ==> h.start == p + 3 && h.utf8 == utf8
    ensures h.Record? ==> h.start + h.length <= |data| && h.length < 0x1_0000
    ensures h.End? <==> sig != EnvelopeSig && sig != DataSig
    ensures h.Fail? ==> h.outcome == Corrupt
  {
    if sig != EnvelopeSig && sig != DataSig then End
    else if p + 3 > |data| then Fail(Corrupt)
    else
      var length := Word(data[p + 1], data[p + 2]);
      if p + 3 + length > |data| then Fail(Corrupt)
      else Record(utf8, data[p], length, p + 3)
  }

  /** What the `switch` of iptc.c:199-234 decides to print for one record:
      the record version, an unrecognised type, or a labelled text. A UTF-8
      text is kept as the zero-padded staging buffer it is transcoded from. */
  datatype Item =
    | Version(version: nat)
    | Unknown(kind: byte)
    | Tagged(name: string, text: seq<byte>, utf8: bool)

  /** The fixed text in front of a record version and of an unrecognised
      record type (iptc.c:201, 231). */
  const VersionPrefix: string := "Record vers.  : "
  const UnknownPrefix: string := "Unrecognised IPTC tag: "

  /** `"Record vers.  : %d"` of iptc.c:201: the prefix, then a numeral that
      reads back as the version. */
  function VersionLine(v: nat): (l: string)
    ensures |l| > |VersionPrefix| && l[..|VersionPrefix|] == VersionPrefix
    ensures Numeral(l[|VersionPrefix|..]) && DigitsValue(l[|VersionPrefix|..]) == v
  {
    var digits := Decimal(v);
    DecimalRoundTrip(v);
    assert (VersionPrefix + digits)[|VersionPrefix|..] == digits;
    VersionPrefix + digits
  }

  /** `"Unrecognised IPTC tag: %d"` of iptc.c:231: the prefix, then a numeral
      that reads back as the record type. */
  function UnknownLine(kind: byte): (l: string)
    ensures |l| > |UnknownPrefix| && l[..|UnknownPrefix|] == UnknownPrefix
    ensures Numeral(l[|UnknownPrefix|..]) && DigitsValue(l[|UnknownPrefix|..]) == kind
  {
    var digits := Decimal(kind);
    DecimalRoundTrip(kind);
    assert (UnknownPrefix + digits)[|UnknownPrefix|..] == digits;
    UnknownPrefix + digits
  }

  /** A labelled line: the caption, a space, then the text up to its first
      zero byte (`strlen`), one character per byte. */
  predicate LabelledLine(l: string, name: string, text: seq<byte>)
  {
    && |l| == |Caption(name)| + 1 + FirstZero(text)
    && l[..|Caption(name)| + 1] == Caption(name) + " "
    && forall i :: 0 <= i < FirstZero(text) ==> l[|Caption(name)| + 1 + i] == ToChar(text[i])
  }

  /** `"%s %*.*s"` of iptc.c:249-251. */
  function TagLine(name: string, text: seq<byte>): (l: string)
    ensures LabelledLine(l, name, text)
  {
    Caption(name) + " " + ToText(UpToZero(text))
  }

  /** The line `printf` writes for an item: a version and an unrecognised type
      as their prefix and a numeral that reads back as the number, a labelled
      text as its caption, a space and the text up to its first zero, after
      the UTF-8 conversion when the record asked for it. */
  function Render(item: Item): (l: string)
    ensures item.Version? ==> |l| > |VersionPrefix| && l[..|VersionPrefix|] == VersionPrefix
                              && Numeral(l[|VersionPrefix|..]) && DigitsValue(l[|VersionPrefix|..]) == item.version
    ensures item.Unknown? ==> |l| > |UnknownPrefix| && l[..|UnknownPrefix|] == UnknownPrefix
                              && Numeral(l[|UnknownPrefix|..]) && DigitsValue(l[|UnknownPrefix|..]) == item.kind
    ensures item.Tagged? && !item.utf8 ==> LabelledLine(l, item.name, item.text)
    ensures item.Tagged? && item.utf8 ==> LabelledLine(l, item.name, Utf8.Utf8ToChar(item.text))
  {
    match item
    case Version(v) => VersionLine(v)
    case Unknown(kind) => UnknownLine(kind)
    case Tagged(name, text, utf8) => TagLine(name, if utf8 then Utf8.Utf8ToChar(text) else text)
  }

  function RenderAll(items: seq<Item>): (ls: seq<string>)
    ensures |ls| == |items|
    ensures forall i :: 0 <= i < |items| ==> ls[i] == Render(items[i])
  {
    seq(|items|, i requires 0 <= i < |items| => Render(items[i]))
  }

  datatype Display = Items(items: seq<Item>) | Abort(outcome: Outcome)

  /** The `switch` of iptc.c:199-254 for one record. */
  function Entry(data: seq<byte>, kind: byte, start: nat, length: nat, utf8: bool, showTags: bool): (e: Display)
    requires start + length <= |data|
    ensures e.Items? ==> |e.items| <= 1
    ensures e.Items? && e.items == [] ==> kind !in KnownCodes && kind != RecordVersion && !showTags
    ensures e.Items? && e.items != [] && e.items[0].Tagged? ==>
      && Label(kind) == Some(e.items[0].name)
      && e.items[0].utf8 == utf8
      && |e.items[0].text| == (if utf8 then StagingSize else length)
      && length <= |e.items[0].text|
      && e.items[0].text[..length] == data[start..start + length]
    ensures e.Items? && e.items != [] && e.items[0].Tagged? && utf8 ==>
      e.items[0].text[length..] == Zeros(StagingSize - length)
    ensures kind != RecordVersion && kind !in KnownCodes ==>
      e == Items(if showTags then [Unknown(kind)] else [])
    ensures kind == RecordVersion && start + 2 <= |data| ==>
      e == Items([Version(Word(data[start], data[start + 1]))])
    ensures e.Abort? ==>
      || (kind == RecordVersion && start + 2 > |data| && e.outcome == Corrupt)
      || (utf8 && length >= StagingSize && e.outcome == Overflow)
  {
    if kind == RecordVersion then
      if start + 2 > |data| then Abort(Corrupt)
      else Items([Version(Word(data[start], data[start + 1]))])
    else match Label(kind)
      case None => Items(if showTags then [Unknown(kind)] else [])
      case Some(name) =>
        var field := data[start..start + length];
        if !utf8 then Items([Tagged(name, field, false)])
        else if length >= StagingSize then Abort(Overflow)
        else Items([Tagged(name, field + Zeros(StagingSize - length), true)])
  }

  /** What one pass of the record loop body leaves. */
  datatype Iteration = Continue(items: seq<Item>, next: nat) | Halt(outcome: Outcome)

  /** One pass of the loop body of iptc.c:163-255: read the header, show the
      record, and move past its data. */
  function RecordIteration(data: seq<byte>, pos: nat, showTags: bool): (it: Iteration)
    requires pos + 5 < |data|
    ensures it.Continue? ==> pos + 5 <= it.next <= |data| && |it.items| <= 1
    ensures it.Halt? && it.outcome == Overflow ==> |data| >= pos + 5 + 8 + StagingSize
  {
    match ReadHead(data, pos)
    case End => Halt(Ok)
    case Fail(o) => Halt(o)
    case Record(utf8, kind, length, start) =>
      match Entry(data, kind, start, length, utf8, showTags)
      case Abort(o) => Halt(o)
      case Items(items) => Continue(items, start + length)
  }

  /** The items the record loop shows and how it ends. */
  datatype Parse = Parse(items: seq<Item>, outcome: Outcome)

  /** The record loop of iptc.c:162-256: it runs while more than five bytes
      remain. The UTF-8 flag is declared inside the loop body, so an envelope
      affects only the record read in the same iteration. */
  function Records(data: seq<byte>, pos: nat, showTags: bool): (r: Parse)
    ensures |data| <= pos + 5 ==> r == Parse([], Ok)
    ensures r.outcome == Overflow ==> |data| >= pos + 5 + 8 + StagingSize
    decreases |data| - pos
  {
    if pos + 5 >= |data| then Parse([], Ok)
    else match RecordIteration(data, pos, showTags)
      case Halt(o) => Parse([], o)
      case Continue(items, next) =>
        var rest := Records(data, next, showTags);
        Parse(items + rest.items, rest.outcome)
  }

  /** What `ErrNonfatal` reports for an outcome (iptc.c:129-131, 258-259):
      corruption always, a signature mismatch only with `ShowTags`. */
  function Diagnostics(o: Outcome, showTags: bool): (d: seq<string>)
    ensures |d| <= 1
    ensures d != [] <==> o == Corrupt || (o == BadSig && showTags)
  {
    match o
    case Corrupt => ["Pointer corruption in IPTC"]
    case BadSig => if showTags then ["IPTC type signature mismatch"] else []
    case _ => []
  }
}

=== FILE: iptc_records.dfy ===
/** IIM records built from their parts, and what the record loop of
    `show_IPTC` (iptc.c:162-256) makes of them: the partner of the parser in
    module Iptc. */
module IptcRecords {
  import opened Bytes
  import Utf8
  import opened TagCatalog
  import opened Iptc

  /** One IIM data record: its type byte and its data. */
  datatype Tag = Tag(kind: byte, value: seq<byte>)

  /** A record the loop reads back in full: its data fits the 16-bit length,
      and a record version carries the two bytes it is printed from. */
  predicate Readable(t: Tag)
  {
    |t.value| < 0x1_0000 && (t.kind == RecordVersion ==> 2 <= |t.value|)
  }

  predicate AllReadable(ts: seq<Tag>)
  {
    forall i :: 0 <= i < |ts| ==> Readable(ts[i])
  }

  /** `1C 02`, type, big-endian length, data. */
  function EncodeTag(t: Tag): (e: seq<byte>)
    requires |t.value| < 0x1_0000
    ensures |e| == 5 + |t.value|
  {
    [0x1C, 0x02, t.kind, |t.value| / 256, |t.value| % 256] + t.value
  }

  function EncodeTags(ts: seq<Tag>): (e: seq<byte>)
    requires AllReadable(ts)
    ensures |e| >= 5 * |ts|
    ensures ts != [] ==> |e| >= 5 * |ts| + |ts[|ts| - 1].value|
  {
    if ts == [] then [] else EncodeTag(ts[0]) + EncodeTags(ts[1..])
  }

  /** The envelope record that declares UTF-8: `1C 01`, coded character set,
      length 3, `ESC % G`. */
  const Envelope: seq<byte> := [0x1C, 0x01, 0x5A, 0x00, 0x03, 0x1B, 0x25, 0x47]

  /** What a record is shown as when no envelope precedes it. */
  function Expected(t: Tag, showTags: bool): seq<Item>
    requires Readable(t)
  {
    if t.kind == RecordVersion then [Version(t.value[0] as int * 256 + t.value[1] as int)]
    else match Label(t.kind)
      case None => if showTags then [Unknown(t.kind)] else []
      case Some(name) => [Tagged(name, t.value, false)]
  }

  /** What a record is shown as right after a UTF-8 envelope: its text is
      staged for the transcoder. */
  function ExpectedUtf8(t: Tag, showTags: bool): seq<Item>
    requires Readable(t) && |t.value| < StagingSize
  {
    match Label(t.kind)
    case Some(name) => [Tagged(name, t.value + Zeros(StagingSize - |t.value|), true)]
    case None => Expected(t, showTags)
  }

  function ExpectedAll(ts: seq<Tag>, showTags: bool): seq<Item>
    requires AllReadable(ts)
  {
    if ts == [] then [] else Expected(ts[0], showTags) + ExpectedAll(ts[1..], showTags)
  }

  /** What follows the records stops the loop without error: too few bytes
      remain, or the next signature is not an IIM record signature. */
  predicate EndsLoop(data: seq<byte>, e: nat)
  {
    e <= |data|
    && (|data| <= e + 5
        || (Word(data[e], data[e + 1]) != EnvelopeSig && Word(data[e], data[e + 1]) != DataSig))
  }

  /** The loop guard of iptc.c:162 lets the last of the records in: it needs
      a byte past a record's 5-byte header, so a last record with empty data
      is read only when something follows it. The records before it always
      have the next header behind them. */
  predicate LastRead(data: seq<byte>, ts: seq<Tag>, end: nat)
  {
    ts == [] || end < |data| || 0 < |ts[|ts| - 1].value|
  }

  // ---------------------------------------------------------------------------
  // One record at a time

  /** One encoded record is read in one iteration as its item, and the loop
      continues right after its data. */
  lemma RecordIterationOfTag(data: seq<byte>, pos: nat, t: Tag, showTags: bool)
    requires Readable(t) && Holds(data, pos, EncodeTag(t)) && pos + 5 < |data|
    ensures RecordIteration(data, pos, showTags) == Continue(Expected(t, showTags), pos + |EncodeTag(t)|)
  {
    var n := |t.value|;
    var head: seq<byte> := [0x1C, 0x02, t.kind, n / 256, n % 256];
    assert EncodeTag(t) == head + t.value;
    SplitWindow(data, pos, head, t.value);
    WindowAt(data, pos, head, 0);
    WindowAt(data, pos, head, 1);
    WindowAt(data, pos, head, 2);
    WindowAt(data, pos, head, 3);
    WindowAt(data, pos, head, 4);
    assert Word(data[pos + 3], data[pos + 4]) == n;
    assert ReadHead(data, pos) == Record(false, t.kind, n, pos + 5);
    if t.kind == RecordVersion {
      WindowAt(data, pos + 5, t.value, 0);
      WindowAt(data, pos + 5, t.value, 1);
    }
  }

  /** The loop reads one encoded record as its item and carries on after it. */
  lemma RecordStep(data: seq<byte>, pos: nat, t: Tag, showTags: bool)
    requires Readable(t) && Holds(data, pos, EncodeTag(t)) && pos + 5 < |data|
    ensures Records(data, pos, showTags)
         == var rest := Records(data, pos + |EncodeTag(t)|, showTags);
            Parse(Expected(t, showTags) + rest.items, rest.outcome)
  {
    RecordIterationOfTag(data, pos, t, showTags);
  }

  /** A signature other than `1C01` and `1C02` ends the loop with Ok and
      nothing shown, whatever follows it. */
  lemma OtherSignatureEndsLoop(data: seq<byte>, pos: nat, showTags: bool)
    requires pos + 5 < |data|
    requires Word(data[pos], data[pos + 1]) != EnvelopeSig && Word(data[pos], data[pos + 1]) != DataSig
    ensures Records(data, pos, showTags) == Parse([], Ok)
  {
    assert ReadHead(data, pos) == End;
  }

  /** A first byte other than `1C` is one such signature. */
  lemma OtherLeadByte(data: seq<byte>, e: nat)
    requires e + 5 < |data| && data[e] != 0x1C
    ensures EndsLoop(data, e)
  {
    assert Word(data[e], data[e + 1]) / 256 == data[e];
  }

  /** What follows the records ends the loop with Ok and nothing shown. */
  lemma LoopEnds(data: seq<byte>, pos: nat, showTags: bool)
    requires EndsLoop(data, pos)
    ensures Records(data, pos, showTags) == Parse([], Ok)
  {
    if pos + 5 < |data| {
      OtherSignatureEndsLoop(data, pos, showTags);
    }
  }

  /** The inductive step of RecordsOfTags: a record in front of a run the
      loop reads in full adds its item in front. */
  lemma RecordsCons(data: seq<byte>, pos: nat, next: nat, t: Tag, rest: seq<Item>, showTags: bool)
    requires Readable(t) && Holds(data, pos, EncodeTag(t)) && next == pos + |EncodeTag(t)|
    requires pos + 5 < |data| && Records(data, next, showTags) == Parse(rest, Ok)
    ensures Records(data, pos, showTags) == Parse(Expected(t, showTags) + rest, Ok)
  {
    RecordIterationOfTag(data, pos, t, showTags);
  }

  /** A run of encoded records followed by an end of loop shows each
      record's item in order and ends with Ok. */
  lemma {:induction false} RecordsOfTags(data: seq<byte>, pos: nat, ts: seq<Tag>, showTags: bool)
    requires AllReadable(ts) && Holds(data, pos, EncodeTags(ts))
    requires EndsLoop(data, pos + |EncodeTags(ts)|) && LastRead(data, ts, pos + |EncodeTags(ts)|)
    ensures Records(data, pos, showTags) == Parse(ExpectedAll(ts, showTags), Ok)
    decreases |ts|
  {
    if ts == [] {
      LoopEnds(data, pos, showTags);
    } else {
      var tail := EncodeTags(ts[1..]);
      var next := pos + |EncodeTag(ts[0])|;
      assert AllReadable(ts[1..]);
      assert EncodeTags(ts) == EncodeTag(ts[0]) + tail;
      SplitWindow(data, pos, EncodeTag(ts[0]), tail);
      assert next + |tail| == pos + |EncodeTags(ts)|;
      assert LastRead(data, ts[1..], next + |tail|);
      RecordsOfTags(data, next, ts[1..], showTags);
      RecordsCons(data, pos, next, ts[0], ExpectedAll(ts[1..], showTags), showTags);
    }
  }

  /** An empty caption followed by the caption `A`. */
  const CaptionPair: seq<Tag> := [Tag(0x78, []), Tag(0x78, [0x41])]

  lemma CaptionPairBytes()
    ensures AllReadable(CaptionPair)
    ensures EncodeTags(CaptionPair) == [0x1C, 0x02, 0x78, 0, 0, 0x1C, 0x02, 0x78, 0, 1, 0x41]
  {
    var ts := CaptionPair;
    assert AllReadable(ts);
    assert EncodeTags(ts[1..][1..]) == [];
    assert EncodeTags(ts[1..]) == EncodeTag(ts[1]);
  }

  lemma CaptionPairItems(showTags: bool)
    ensures AllReadable(CaptionPair)
    ensures ExpectedAll(CaptionPair, showTags) == [Tagged("Caption", [], false), Tagged("Caption", [0x41], false)]
  {
    var ts := CaptionPair;
    assert AllReadable(ts);
    assert Label(0x78) == Some("Caption");
    assert ExpectedAll(ts[1..][1..], showTags) == [];
    assert ExpectedAll(ts[1..], showTags) == [Tagged("Caption", [0x41], false)];
  }

  /** An empty record with another record behind it is read: an empty
      caption followed by the caption `A` shows both. */
  lemma EmptyRecordThenCaption(showTags: bool)
    ensures Records([0x1C, 0x02, 0x78, 0, 0, 0x1C, 0x02, 0x78, 0, 1, 0x41], 0, showTags)
         == Parse([Tagged("Caption", [], false), Tagged("Caption", [0x41], false)], Ok)
  {
    var data: seq<byte> := [0x1C, 0x02, 0x78, 0, 0, 0x1C, 0x02, 0x78, 0, 1, 0x41];
    CaptionPairBytes();
    CaptionPairItems(showTags);
    HoldsWhole(data);
    RecordsOfTags(data, 0, CaptionPair, showTags);
  }

  // ---------------------------------------------------------------------------
  // The UTF-8 envelope

  /** An envelope followed by a data record is read as one record header
      with the UTF-8 flag set, eight bytes further on. */
  lemma EnvelopeHead(data: seq<byte>, pos: nat, t: Tag)
    requires Readable(t) && Holds(data, pos, Envelope + EncodeTag(t))
    ensures ReadHead(data, pos) == Record(true, t.kind, |t.value|, pos + 13)
  {
    var tag := EncodeTag(t);
    SplitWindow(data, pos, Envelope, tag);
    Window(data, pos, Envelope, 5, 8);
    assert Envelope[5..8] == Utf8Escape;
    WindowAt(data, pos, Envelope, 0);
    WindowAt(data, pos, Envelope, 1);
    WindowAt(data, pos, Envelope, 2);
    WindowAt(data, pos + 8, tag, 0);
    WindowAt(data, pos + 8, tag, 1);
    WindowAt(data, pos + 8, tag, 2);
    WindowAt(data, pos + 8, tag, 3);
    WindowAt(data, pos + 8, tag, 4);
    assert Word(data[pos + 11], data[pos + 12]) == |t.value|;
  }

  /** A labelled record read with the UTF-8 flag is staged, zero-padded, for
      the transcoder. */
  lemma Utf8Entry(data: seq<byte>, start: nat, t: Tag, showTags: bool)
    requires Readable(t) && |t.value| < StagingSize && Holds(data, start, t.value)
    ensures Entry(data, t.kind, start, |t.value|, true, showTags) == Items(ExpectedUtf8(t, showTags))
  {
    if t.kind == RecordVersion {
      WindowAt(data, start, t.value, 0);
      WindowAt(data, start, t.value, 1);
    }
  }

  /** The zero padding of the staging buffer does not show: a UTF-8 item is
      printed as the transcoding of the record's own bytes. */
  lemma Utf8Line(name: string, value: seq<byte>)
    requires |value| < StagingSize
    ensures Render(Tagged(name, value + Zeros(StagingSize - |value|), true))
         == TagLine(name, Utf8.Utf8ToChar(value))
  {
    var padded := value + Zeros(StagingSize - |value|);
    Utf8.StagingIrrelevant(value, StagingSize - |value|);
    RenderUtf8(name, padded, Utf8.Utf8ToChar(value));
  }

  /** A UTF-8 item is printed as the line of its transcoding. */
  lemma RenderUtf8(name: string, text: seq<byte>, shown: seq<byte>)
    requires shown == Utf8.Utf8ToChar(text)
    ensures Render(Tagged(name, text, true)) == TagLine(name, shown)
  {
  }

  /** An envelope and its data record are read in one iteration, which shows
      the staged text and continues after the data. */
  lemma EnvelopeIteration(data: seq<byte>, pos: nat, t: Tag, showTags: bool)
    requires Readable(t) && |t.value| < StagingSize && Holds(data, pos, Envelope + EncodeTag(t))
    ensures RecordIteration(data, pos, showTags)
         == Continue(ExpectedUtf8(t, showTags), pos + |Envelope + EncodeTag(t)|)
  {
    var tag := EncodeTag(t);
    var head := tag[..5];
    EnvelopeHead(data, pos, t);
    SplitWindow(data, pos, Envelope, tag);
    assert tag == head + t.value;
    SplitWindow(data, pos + |Envelope|, head, t.value);
    Utf8Entry(data, pos + 13, t, showTags);
  }

  /** The envelope analogue of RecordsCons. */
  lemma EnvelopeCons(data: seq<byte>, pos: nat, next: nat, t: Tag, rest: seq<Item>, showTags: bool)
    requires Readable(t) && |t.value| < StagingSize && Holds(data, pos, Envelope + EncodeTag(t))
    requires next == pos + |Envelope + EncodeTag(t)|
    requires Records(data, next, showTags) == Parse(rest, Ok)
    ensures Records(data, pos, showTags) == Parse(ExpectedUtf8(t, showTags) + rest, Ok)
  {
    EnvelopeIteration(data, pos, t, showTags);
  }

  /** A UTF-8 envelope applies to the one record read in the same loop
      iteration; the records after it are shown without transcoding. */
  lemma EnvelopeScope(data: seq<byte>, pos: nat, t: Tag, ts: seq<Tag>, showTags: bool)
    requires Readable(t) && |t.value| < StagingSize && AllReadable(ts)
    requires Holds(data, pos, Envelope + EncodeTag(t) + EncodeTags(ts))
    requires EndsLoop(data, pos + |Envelope + EncodeTag(t) + EncodeTags(ts)|)
    requires LastRead(data, ts, pos + |Envelope + EncodeTag(t) + EncodeTags(ts)|)
    ensures Records(data, pos, showTags)
         == Parse(ExpectedUtf8(t, showTags) + ExpectedAll(ts, showTags), Ok)
  {
    var next := pos + |Envelope + EncodeTag(t)|;
    SplitWindow(data, pos, Envelope + EncodeTag(t), EncodeTags(ts));
    assert Holds(data, next, EncodeTags(ts));
    assert next + |EncodeTags(ts)| == pos + |Envelope + EncodeTag(t) + EncodeTags(ts)|;
    RecordsOfTags(data, next, ts, showTags);
    EnvelopeCons(data, pos, next, t, ExpectedAll(ts, showTags), showTags);
  }

  // ---------------------------------------------------------------------------
  // Error paths

  /** A record whose declared length runs past the end of the segment stops
      the loop with Corrupt before anything of it is shown. */
  lemma LengthPastEnd(data: seq<byte>, pos: nat, kind: byte, hi: byte, lo: byte, showTags: bool)
    requires pos + 5 < |data| < pos + 5 + Word(hi, lo)
    requires data[pos..pos + 5] == [0x1C, 0x02, kind, hi, lo]
    ensures Records(data, pos, showTags) == Parse([], Corrupt)
  {
    assert data[pos] == 0x1C && data[pos + 1] == 0x02;
    assert data[pos + 3] == hi && data[pos + 4] == lo;
  }

  /** An envelope record that does not name the coded character set is a
      signature mismatch. */
  lemma EnvelopeWrongType(data: seq<byte>, pos: nat, kind: byte, showTags: bool)
    requires pos + 5 < |data| && kind != CodedCharacterSet
    requires data[pos..pos + 3] == [0x1C, 0x01, kind]
    ensures Records(data, pos, showTags) == Parse([], BadSig)
  {
    assert data[pos] == 0x1C && data[pos + 1] == 0x01 && data[pos + 2] == kind;
  }

  /** An unrecognised record type shows nothing, or one line naming the
      type when ShowTags is set; the loop carries on after it. */
  lemma UnknownTag(data: seq<byte>, pos: nat, t: Tag, showTags: bool)
    requires Readable(t) && t.kind != RecordVersion && t.kind !in KnownCodes
    requires Holds(data, pos, EncodeTag(t)) && pos + 5 < |data|
    ensures Records(data, pos, showTags).items
         == (if showTags then [Unknown(t.kind)] else []) + Records(data, pos + |EncodeTag(t)|, showTags).items
    ensures Render(Unknown(t.kind)) == "Unrecognised IPTC tag: " + Decimal(t.kind)
  {
    RecordStep(data, pos, t, showTags);
    assert Expected(t, showTags) == (if showTags then [Unknown(t.kind)] else []);
  }
}

=== FILE: iptc_segment.dfy ===
/** Photoshop resource blocks and whole APP13 segments built from their
    parts, and what `show_IPTC` (iptc.c:95-260) makes of them. */
module IptcSegment {
  import opened Bytes
  import opened TagCatalog
  import opened Iptc
  import opened IptcRecords

  // ---------------------------------------------------------------------------
  // The resource-block wrapper

  /** A Photoshop resource block other than the IPTC one. */
  datatype Block = Block(id: seq<byte>, header: seq<byte>, payload: seq<byte>)

  /** A block the sibling loop steps over: a two-byte id other than `04 04`,
      a header and a payload each shorter than 256 bytes. */
  predicate Skippable(b: Block)
  {
    |b.id| == 2 && b.id != IptcBlockId && |b.header| < 256 && |b.payload| < 256
  }

  predicate AllSkippable(bs: seq<Block>)
  {
    forall i :: 0 <= i < |bs| ==> Skippable(bs[i])
  }

  /** id, header length, header padded to even length counting the length
      byte, 4-byte big-endian size, payload, and the `8BIM` of the next block. */
  function EncodeBlock(b: Block): (e: seq<byte>)
    requires Skippable(b)
    ensures |e| == 2 + RoundUpEven(|b.header| + 1) + 4 + |b.payload| + 4
  {
    b.id + [|b.header| as byte] + b.header + Zeros((|b.header| + 1) % 2)
      + [0, 0, 0, |b.payload| as byte] + b.payload + Bim
  }

  function EncodeBlocks(bs: seq<Block>): seq<byte>
    requires AllSkippable(bs)
  {
    if bs == [] then [] else EncodeBlock(bs[0]) + EncodeBlocks(bs[1..])
  }

  /** The block split where the sibling loop reads it: everything up to the
      low byte of the size, that byte, the payload, and `8BIM`. */
  function BlockFront(b: Block): seq<byte>
    requires Skippable(b)
  {
    b.id + [|b.header| as byte] + b.header + Zeros((|b.header| + 1) % 2) + [0, 0, 0]
  }

  lemma BlockParts(b: Block)
    requires Skippable(b)
    ensures EncodeBlock(b) == BlockFront(b) + [|b.payload| as byte] + b.payload + Bim
    ensures |BlockFront(b)| == 2 + SiblingHeaderSkip(|b.header|) + 3
  {
  }

  /** Where the sibling loop finds the id and the header length. */
  lemma BlockHead(data: seq<byte>, pos: nat, b: Block)
    requires Skippable(b) && Holds(data, pos, BlockFront(b))
    ensures data[pos..pos + 2] == b.id
    ensures data[pos + 2] == |b.header|
  {
    var front := BlockFront(b);
    Window(data, pos, front, 0, 2);
    assert front[..2] == b.id;
    WindowAt(data, pos, front, 2);
  }

  /** Where the sibling loop finds, at `lp`, the low byte of the size and, at
      `next`, the four bytes that should be the `8BIM` closing the block. */
  lemma BlockTail(data: seq<byte>, lp: nat, b: Block, trailer: seq<byte>, next: nat)
    requires Skippable(b) && Holds(data, lp, [|b.payload| as byte] + b.payload + trailer)
    requires |trailer| == 4 && next == lp + 1 + |b.payload|
    ensures data[lp] == |b.payload|
    ensures data[next..next + 4] == trailer
  {
    var size := [|b.payload| as byte];
    SplitWindow(data, lp, size + b.payload, trailer);
    SplitWindow(data, lp, size, b.payload);
    WindowAt(data, lp, size, 0);
  }

  /** The fields of an encoded block where the sibling loop reads them. */
  lemma BlockLayout(data: seq<byte>, pos: nat, b: Block, lp: nat, next: nat)
    requires Skippable(b) && Holds(data, pos, EncodeBlock(b))
    requires lp == pos + 2 + SiblingHeaderSkip(|b.header|) + 3 && next == lp + 1 + |b.payload|
    ensures data[pos..pos + 2] == b.id
    ensures data[pos + 2] == |b.header|
    ensures data[lp] == |b.payload|
    ensures next + 4 == pos + |EncodeBlock(b)| && data[next..next + 4] == Bim
  {
    var tail := [|b.payload| as byte] + b.payload + Bim;
    BlockParts(b);
    assert EncodeBlock(b) == BlockFront(b) + tail;
    SplitWindow(data, pos, BlockFront(b), tail);
    BlockHead(data, pos, b);
    BlockTail(data, lp, b, Bim, next);
  }

  /** One pass of the sibling loop steps over one block exactly. */
  lemma BlockStep(data: seq<byte>, pos: nat, b: Block, next: nat)
    requires Skippable(b) && Holds(data, pos, EncodeBlock(b)) && next == pos + |EncodeBlock(b)|
    ensures SiblingStep(data, pos) == Advance(next)
  {
    var lp := pos + 2 + SiblingHeaderSkip(|b.header|) + 3;
    BlockLayout(data, pos, b, lp, lp + 1 + |b.payload|);
  }

  /** A block whose size is read correctly but which is not followed by
      `8BIM` ends the sibling loop with a signature mismatch (iptc.c:128-133). */
  lemma BadBlockTrailer(data: seq<byte>, pos: nat, b: Block, trailer: seq<byte>)
    requires Skippable(b) && |trailer| == 4 && trailer != Bim
    requires Holds(data, pos, BlockFront(b) + [|b.payload| as byte] + b.payload + trailer)
    ensures SiblingStep(data, pos) == Finish(Stop(BadSig))
    ensures SkipSiblings(data, pos) == Stop(BadSig)
  {
    var tail := [|b.payload| as byte] + b.payload + trailer;
    assert BlockFront(b) + [|b.payload| as byte] + b.payload + trailer == BlockFront(b) + tail;
    SplitWindow(data, pos, BlockFront(b), tail);
    BlockParts(b);
    BlockHead(data, pos, b);
    var lp := pos + |BlockFront(b)|;
    BlockTail(data, lp, b, trailer, lp + 1 + |b.payload|);
  }

  /** The inductive step of SkipBlocks. */
  lemma SkipCons(data: seq<byte>, pos: nat, next: nat, b: Block, found: nat)
    requires Skippable(b) && Holds(data, pos, EncodeBlock(b)) && next == pos + |EncodeBlock(b)|
    requires SkipSiblings(data, next) == Found(found)
    ensures SkipSiblings(data, pos) == Found(found)
  {
    BlockStep(data, pos, b, next);
  }

  /** The sibling loop steps over every block and stops at the IPTC id that
      follows them. */
  lemma {:induction false} SkipBlocks(data: seq<byte>, pos: nat, bs: seq<Block>, end: nat)
    requires AllSkippable(bs) && Holds(data, pos, EncodeBlocks(bs) + IptcBlockId)
    requires end == pos + |EncodeBlocks(bs)|
    ensures SkipSiblings(data, pos) == Found(end)
    decreases |bs|
  {
    if bs == [] {
      assert EncodeBlocks(bs) + IptcBlockId == IptcBlockId;
      Window(data, pos, IptcBlockId, 0, 2);
    } else {
      var tail := EncodeBlocks(bs[1..]) + IptcBlockId;
      var next := pos + |EncodeBlock(bs[0])|;
      assert AllSkippable(bs[1..]);
      assert EncodeBlocks(bs) + IptcBlockId == EncodeBlock(bs[0]) + tail;
      SplitWindow(data, pos, EncodeBlock(bs[0]), tail);
      assert Holds(data, next, tail);
      SkipBlocks(data, next, bs[1..], end);
      SkipCons(data, pos, next, bs[0], end);
    }
  }

  /** A 256-byte block written with its true 4-byte size `00 00 01 00` is
      read as size 0, so the loop looks for `8BIM` at the start of the
      payload and reports a signature mismatch. */
  lemma LargeBlockMisread(data: seq<byte>, pos: nat, id: seq<byte>, payload: seq<byte>)
    requires |id| == 2 && id != IptcBlockId && |payload| == 256 && payload[..4] != Bim
    requires Holds(data, pos, id + [0, 0] + [0, 0, 1, 0] + payload)
    ensures SkipSiblings(data, pos) == Stop(BadSig)
  {
    var front: seq<byte> := id + [0, 0] + [0, 0, 1, 0];
    SplitWindow(data, pos, front, payload);
    Window(data, pos, front, 0, 2);
    assert front[..2] == id;
    WindowAt(data, pos, front, 2);
    WindowAt(data, pos, front, 7);
    Window(data, pos + 8, payload, 0, 4);
    assert SiblingStep(data, pos) == Finish(Stop(BadSig));
  }

  // ---------------------------------------------------------------------------
  // Whole segments

  /** The 2-byte segment length (not read by the parser), `Photoshop 3.0`
      and its terminating zero (not compared), and `8BIM`. */
  function Preamble(lengthField: seq<byte>): (p: seq<byte>)
    requires |lengthField| == 2
    ensures |p| == 20
  {
    lengthField + PhotoshopSig + [0] + Bim
  }

  /** The IPTC block id, its header padded to even length counting the
      length byte, and the 4-byte data length (not decoded). */
  function IptcHeader(header: seq<byte>, size: seq<byte>): (p: seq<byte>)
    requires |header| < 256 && |size| == 4
    ensures |p| == 2 + RoundUpEven(|header| + 1) + 4
  {
    IptcBlockId + [|header| as byte] + header + Zeros((|header| + 1) % 2) + size
  }

  /** A segment as a writer lays it out. */
  function Segment(lengthField: seq<byte>, bs: seq<Block>, header: seq<byte>, size: seq<byte>, ts: seq<Tag>): seq<byte>
    requires |lengthField| == 2 && AllSkippable(bs) && |header| < 256 && |size| == 4 && AllReadable(ts)
  {
    Preamble(lengthField) + EncodeBlocks(bs) + IptcHeader(header, size) + EncodeTags(ts)
  }

  /** Records ending in one with data leave more than five bytes, so the
      check of iptc.c:147 passes. */
  lemma EncodeTagsLength(ts: seq<Tag>)
    requires AllReadable(ts) && ts != [] && 0 < |ts[|ts| - 1].value|
    ensures |EncodeTags(ts)| >= 6
  {
  }

  /** The signatures the preamble carries. */
  lemma PreambleLayout(data: seq<byte>, lengthField: seq<byte>)
    requires |lengthField| == 2 && Holds(data, 0, Preamble(lengthField))
    ensures data[2..15] == PhotoshopSig && data[16..20] == Bim
  {
    var pre := Preamble(lengthField);
    Window(data, 0, pre, 2, 15);
    assert pre[2..15] == PhotoshopSig;
    Window(data, 0, pre, 16, 20);
    assert pre[16..20] == Bim;
  }

  /** Where the blocks, the IPTC header and the records sit after the preamble. */
  lemma BodyLayout(blocks: seq<byte>, header: seq<byte>, size: seq<byte>, records: seq<byte>)
    requires |header| < 256 && |size| == 4
    ensures var body := blocks + IptcHeader(header, size) + records;
      && Holds(body, 0, blocks + IptcBlockId)
      && Holds(body, |blocks| + 2, [|header| as byte])
      && Holds(body, |blocks| + |IptcHeader(header, size)|, records)
  {
    var hdr := IptcHeader(header, size);
    var body := blocks + hdr + records;
    var padded := header + Zeros((|header| + 1) % 2) + size;
    HoldsWhole(body);
    assert body == (blocks + IptcBlockId + [|header| as byte]) + (padded + records);
    SplitWindow(body, 0, blocks + IptcBlockId + [|header| as byte], padded + records);
    SplitWindow(body, 0, blocks + IptcBlockId, [|header| as byte]);
    SplitWindow(body, 0, blocks + hdr, records);
  }

  /** A segment is its preamble followed by its body. */
  lemma SegmentSplit(lengthField: seq<byte>, bs: seq<Block>, header: seq<byte>, size: seq<byte>, ts: seq<Tag>,
                     data: seq<byte>)
    requires |lengthField| == 2 && AllSkippable(bs) && |header| < 256 && |size| == 4 && AllReadable(ts)
    requires data == Segment(lengthField, bs, header, size, ts)
    ensures Holds(data, 0, Preamble(lengthField))
    ensures Holds(data, 20, EncodeBlocks(bs) + IptcHeader(header, size) + EncodeTags(ts))
    ensures |data| == 20 + |EncodeBlocks(bs) + IptcHeader(header, size) + EncodeTags(ts)|
  {
    var body := EncodeBlocks(bs) + IptcHeader(header, size) + EncodeTags(ts);
    assert data == Preamble(lengthField) + body;
    HoldsWhole(data);
    SplitWindow(data, 0, Preamble(lengthField), body);
  }

  /** Where the parser finds the signatures and the IPTC id, at `q`. */
  lemma SegmentHead(lengthField: seq<byte>, bs: seq<Block>, header: seq<byte>, size: seq<byte>, ts: seq<Tag>,
                    data: seq<byte>, q: nat)
    requires |lengthField| == 2 && AllSkippable(bs) && |header| < 256 && |size| == 4 && AllReadable(ts)
    requires data == Segment(lengthField, bs, header, size, ts)
    requires q == 20 + |EncodeBlocks(bs)|
    ensures data[2..15] == PhotoshopSig && data[16..20] == Bim
    ensures Holds(data, 20, EncodeBlocks(bs) + IptcBlockId)
    ensures q + 2 < |data| && data[q + 2] == |header|
  {
    var blocks := EncodeBlocks(bs);
    var body := blocks + IptcHeader(header, size) + EncodeTags(ts);
    SegmentSplit(lengthField, bs, header, size, ts, data);
    PreambleLayout(data, lengthField);
    BodyLayout(blocks, header, size, EncodeTags(ts));
    Nested(data, 20, body, 0, blocks + IptcBlockId, 20);
    Nested(data, 20, body, |blocks| + 2, [|header| as byte], q + 2);
    WindowAt(data, q + 2, [|header| as byte], 0);
  }

  /** Where the parser finds the records: from `start` to the end. */
  lemma SegmentRecords(lengthField: seq<byte>, bs: seq<Block>, header: seq<byte>, size: seq<byte>, ts: seq<Tag>,
                       data: seq<byte>, start: nat)
    requires |lengthField| == 2 && AllSkippable(bs) && |header| < 256 && |size| == 4 && AllReadable(ts)
    requires data == Segment(lengthField, bs, header, size, ts)
    requires start == 20 + |EncodeBlocks(bs)| + 2 + 1 + IptcHeaderSkip(|header|) + 4
    ensures Holds(data, start, EncodeTags(ts)) && EndsLoop(data, start + |EncodeTags(ts)|)
  {
    var blocks := EncodeBlocks(bs);
    var body := blocks + IptcHeader(header, size) + EncodeTags(ts);
    SegmentSplit(lengthField, bs, header, size, ts, data);
    BodyLayout(blocks, header, size, EncodeTags(ts));
    Nested(data, 20, body, |blocks| + |IptcHeader(header, size)|, EncodeTags(ts), start);
    assert |data| == start + |EncodeTags(ts)|;
  }

  /** From the byte after the `04 04` id at `p`: the header is skipped, the
      banner printed and the record loop started at `start`. */
  lemma SectionOfRecords(data: seq<byte>, p: nat, start: nat, items: seq<Item>, showTags: bool)
    requires p < |data| && start == p + 1 + IptcHeaderSkip(data[p]) + 4 && start < |data|
    requires Records(data, start, showTags) == Parse(items, Ok)
    ensures IptcSection(data, p, showTags) == Report([Banner] + RenderAll(items), Ok)
  {
  }

  /** Once the sibling loop has found the IPTC id at `q`, the segment is
      shown as what follows that id. */
  lemma FoundSection(data: seq<byte>, q: nat, showTags: bool)
    requires MinSegment <= |data| && data[2..15] == PhotoshopSig && data[16..20] == Bim
    requires SkipSiblings(data, 20) == Found(q)
    ensures ShowIptc(data, showTags) == IptcSection(data, q + 2, showTags)
  {
  }

  /** A well-formed segment with at least one record prints the banner and
      every record's line, and ends with Ok, whatever the segment-length and
      data-length fields hold. The segment ends with the records, so the last
      one must carry data for the loop guard to let it in. */
  lemma WellFormedSegment(lengthField: seq<byte>, bs: seq<Block>, header: seq<byte>, size: seq<byte>,
                          ts: seq<Tag>, showTags: bool)
    requires |lengthField| == 2 && AllSkippable(bs) && |header| < 256 && |size| == 4
    requires AllReadable(ts) && ts != [] && 0 < |ts[|ts| - 1].value|
    ensures ShowIptc(Segment(lengthField, bs, header, size, ts), showTags)
         == Report([Banner] + RenderAll(ExpectedAll(ts, showTags)), Ok)
  {
    var data := Segment(lengthField, bs, header, size, ts);
    var q := 20 + |EncodeBlocks(bs)|;
    var start := q + 2 + 1 + IptcHeaderSkip(|header|) + 4;
    SegmentHead(lengthField, bs, header, size, ts, data, q);
    SegmentRecords(lengthField, bs, header, size, ts, data, start);
    EncodeTagsLength(ts);
    SkipBlocks(data, 20, bs, q);
    FoundSection(data, q, showTags);
    RecordsOfTags(data, start, ts, showTags);
    SectionOfRecords(data, q + 2, start, ExpectedAll(ts, showTags), showTags);
  }

  /** A record-version record holding `00 02` is shown as version 2. */
  lemma VersionTwoLine(showTags: bool)
    ensures AllReadable([Tag(RecordVersion, [0, 2])])
    ensures RenderAll(ExpectedAll([Tag(RecordVersion, [0, 2])], showTags)) == ["Record vers.  : 2"]
  {
    var t := Tag(RecordVersion, [0, 2]);
    assert AllReadable([t]);
    assert ExpectedAll([t], showTags) == Expected(t, showTags);
    assert t.value[0] as int * 256 + t.value[1] as int == 2;
    assert Expected(t, showTags) == [Version(2)];
    assert DigitChar(2) == '2';
    assert Decimal(2) == "2";
    assert VersionLine(2) == "Record vers.  : 2";
  }

  /** The minimal segment with one record-version record of value 2. */
  lemma RecordVersionTwo(showTags: bool)
    ensures ShowIptc(Segment([0, 0], [], [], [0, 0, 0, 0], [Tag(RecordVersion, [0, 2])]), showTags)
         == Report([Banner, "Record vers.  : 2"], Ok)
  {
    VersionTwoLine(showTags);
    WellFormedSegment([0, 0], [], [], [0, 0, 0, 0], [Tag(RecordVersion, [0, 2])], showTags);
  }

  /** A segment shorter than 25 bytes is corrupt and prints nothing. */
  lemma ShortSegment(data: seq<byte>, showTags: bool)
    requires |data| < MinSegment
    ensures ShowIptc(data, showTags) == Report([], Corrupt)
    ensures Diagnostics(ShowIptc(data, showTags).outcome, showTags) == ["Pointer corruption in IPTC"]
  {
  }
}

=== FILE: tag_catalog.dfy ===
/** The IPTC tag-type labels of iptc.c:11-35 and the `switch` of iptc.c:199-234. */
module TagCatalog {
  import opened Bytes

  /** Record version: printed as a number rather than looked up. */
  const RecordVersion: byte := 0x00

  /** The labels of the `case`s of iptc.c:204-227. The source's `#define`s
      give 0x2D the name REFERENCE_SERVICE and 0x64 COUNTRY_CODE, but the
      `case` labels print them the other way round; that is reproduced. */
  const Names: map<byte, string> := map[
    0x14 := "SuplementalCategories",
    0x19 := "Keywords",
    0x78 := "Caption",
    0x7A := "Author",
    0x69 := "Headline",
    0x28 := "Spec. Instr.",
    0x0F := "Category",
    0x50 := "Byline",
    0x55 := "Byline Title",
    0x6E := "Credit",
    0x73 := "Source",
    0x74 := "(C)Notice",
    0x05 := "Object Name",
    0x5A := "City",
    0x5F := "State",
    0x65 := "Country",
    0x67 := "OriginalTransmissionReference",
    0x37 := "DateCreated",
    0x0A := "(C)Flag",
    0x2D := "Country Code",
    0x64 := "Ref. Service",
    0x3C := "Time Created",
    0x5C := "Sub Location",
    0x82 := "Image type"
  ]

  /** The 24 record types that have a label. */
  const KnownCodes: set<byte> := Names.Keys

  /** The label a record type is shown with, or None for a type the C leaves
      at `description = NULL`. Every label fits the 32-byte `TempBuf`
      together with the `':'` and the terminating zero. */
  function Label(t: byte): (l: Option<string>)
    ensures l.Some? <==> t in KnownCodes
    ensures l.Some? ==> 0 < |l.value| <= 30
  {
    if t in Names then Some(Names[t]) else None
  }

  /** Different record types are never shown under the same label. */
  lemma LabelsDistinct(t: byte, u: byte)
    requires t in KnownCodes && u in KnownCodes && t != u
    ensures Label(t) != Label(u)
  {
  }

  /** The record version has no label: it is dispatched before the lookup. */
  lemma RecordVersionUnlabelled()
    ensures RecordVersion !in KnownCodes && Label(RecordVersion) == None
  {
  }

  /** The two swapped entries of the `switch`. */
  lemma CountryCodeAndReferenceServiceSwapped()
    ensures Label(0x2D) == Some("Country Code")
    ensures Label(0x64) == Some("Ref. Service")
  {
  }

  /** `TempBuf` after iptc.c:239-242: the label, then spaces up to column 14
      when it is shorter, then `':'`. */
  function Caption(name: string): (c: string)
    ensures |c| == (if |name| < 14 then 14 else |name|) + 1
    ensures c[..|name|] == name && c[|c| - 1] == ':'
    ensures forall i :: |name| <= i < |c| - 1 ==> c[i] == ' '
  {
    var spaces := seq(14, _ => ' ');
    if |name| < 14 then name + spaces[|name|..] + ":" else name + ":"
  }
}

=== FILE: utf8.dfy ===
/** `UTF8_to_Char` (iptc.c:43-74): the lossy UTF-8 to 8-bit transcoder.

    The input is the zero-padded staging buffer the caller fills; `buflen` is
    its `strlen`. The output is the sequence of destination slots the loop
    steps over: a slot it never writes keeps the 0 the caller put there. */
module Utf8 {
  import opened Bytes

  /** The classes of lead byte the C code tells apart, in its test order. */
  datatype Lead = SevenBit | Continuation | Lead2 | Lead3 | Lead4 | Invalid

  /** The mask tests of iptc.c:50-67 as the C writes them, on the byte as an
      `unsigned char`. */
  function MaskClass(x: bv8): Lead
  {
    if x & 128 == 0 then SevenBit
    else if x & 192 == 128 then Continuation
    else if x & 224 == 192 then Lead2
    else if x & 240 == 224 then Lead3
    else if x & 248 == 240 then Lead4
    else Invalid
  }

  /** The same tests on the byte value: each mask keeps the top bits, so each
      test compares `c` divided by a power of two. */
  function Classify(c: byte): (k: Lead)
    ensures k == SevenBit <==> c < 0x80
    ensures k == Continuation <==> 0x80 <= c < 0xC0
    ensures k == Lead2 <==> 0xC0 <= c < 0xE0
    ensures k == Lead3 <==> 0xE0 <= c < 0xF0
    ensures k == Lead4 <==> 0xF0 <= c < 0xF8
    ensures k == Invalid <==> 0xF8 <= c
  {
    if c / 128 == 0 then SevenBit
    else if c / 64 == 2 then Continuation
    else if c / 32 == 6 then Lead2
    else if c / 16 == 14 then Lead3
    else if c / 8 == 30 then Lead4
    else Invalid
  }

  /** The value-level classification agrees with the C's masks on every byte. */
  lemma ClassifyMasks(x: bv8)
    ensures Classify(x as int) == MaskClass(x)
  {
  }

  /** An `int` result stored in the 8-bit destination slot keeps its low byte. */
  function Low8(x: bv16): bv8
  {
    (x & 0xFF) as bv8
  }

  /** The two-byte case, iptc.c:59-60, as the C writes it: the slot receives
      `(lead & 31) << 6` truncated to 8 bits, then ORs in `cont & 63`. */
  function TwoByteBits(lead: bv8, cont: bv8): (r: bv8)
    ensures r == ((lead & 3) << 6) | (cont & 63)
  {
    var slot := Low8((lead as bv16 & 31) << 6);
    slot | (cont & 63)
  }

  /** The three-byte case, iptc.c:64-66, as the C writes it. After `a++` the
      code reads `a[1]` and, after a second `a++`, `a[2]`: the third and fifth
      bytes from the lead, not the second and third. The lead's own bits are
      shifted out of the 8-bit slot entirely. */
  function ThreeByteBits(lead: bv8, third: bv8, fifth: bv8): (r: bv8)
    ensures r == ((third & 3) << 6) | (fifth & 63)
  {
    var slot := Low8((lead as bv16 & 15) << 12);
    var slot' := slot | Low8((third as bv16 & 63) << 6);
    slot' | (fifth & 63)
  }

  /** The byte whose top two bits are the low two of `hi` and whose low six
      bits are the low six of `lo`. */
  function Pack(hi: byte, lo: byte): byte
  {
    (hi % 4) * 64 + lo % 64
  }

  lemma LowTwoBits(x: bv8)
    ensures (x & 3) as int == x as int % 4
  {
  }

  lemma LowSixBits(x: bv8)
    ensures (x & 63) as int == x as int % 64
  {
  }

  lemma ShiftSix(x: bv8)
    requires x < 4
    ensures (x << 6) as int == x as int * 64
  {
  }

  lemma OrDisjoint(x: bv8, y: bv8)
    requires x & 63 == 0 && y < 64
    ensures (x | y) as int == x as int + y as int
  {
  }

  /** The C's packing of two bytes' bits into one is `Pack`. */
  lemma PackBits(x: bv8, y: bv8)
    ensures (((x & 3) << 6) | (y & 63)) as int == Pack(x as int, y as int)
  {
    LowTwoBits(x);
    ShiftSix(x & 3);
    LowSixBits(y);
    OrDisjoint((x & 3) << 6, y & 63);
  }

  /** The code point a well-formed two-byte sequence denotes. */
  function CodePoint2(lead: byte, cont: byte): nat
  {
    (lead % 32) * 64 + cont % 64
  }

  /** The byte the two-byte case stores: the low 8 bits of the code point,
      since only the low two of the lead's five payload bits fit. */
  function TwoByte(lead: byte, cont: byte): (r: byte)
    ensures r == CodePoint2(lead, cont) % 256
  {
    var q := lead % 32;
    assert q % 4 == lead % 4;
    assert q * 64 == (q / 4) * 256 + (q % 4) * 64;
    Pack(lead, cont)
  }

  /** `TwoByte` is what the C's slot arithmetic stores. */
  lemma TwoByteMasks(lead: bv8, cont: bv8)
    ensures TwoByteBits(lead, cont) as int == TwoByte(lead as int, cont as int)
  {
    PackBits(lead, cont);
  }

  /** The byte the three-byte case stores, from the third and fifth bytes. */
  function ThreeByte(lead: byte, third: byte, fifth: byte): byte
  {
    Pack(third, fifth)
  }

  /** `ThreeByte` is what the C's slot arithmetic stores. */
  lemma ThreeByteMasks(lead: bv8, third: bv8, fifth: bv8)
    ensures ThreeByteBits(lead, third, fifth) as int == ThreeByte(lead as int, third as int, fifth as int)
  {
    PackBits(third, fifth);
  }

  const Question: byte := 0x3F

  /** What one pass of the loop body does: whether it moves on to the next
      destination slot (every branch but a stray continuation byte does) and
      what that slot then holds, how far it moves the input cursor `a`, and
      how much it adds to the count `b`. */
  datatype Move = Move(emits: bool, slot: byte, used: nat, counted: nat)

  /** One pass of the loop body of iptc.c:49-73, on the bytes from the cursor
      on. A stray continuation byte advances `a` but neither `b` nor the
      output; every other branch moves to the next slot and counts the bytes
      it consumed. A lead byte of `F8` or above writes nothing: its slot
      keeps the caller's 0. */
  function Pass(rest: seq<byte>): (m: Move)
    ensures 1 <= m.used <= 3
    ensures !m.emits <==> Classify(At(rest, 0)) == Continuation
    ensures !m.emits ==> m.counted == 0 && m.used == 1 && 0 < |rest|
    ensures m.emits ==> m.counted == m.used
  {
    var c := At(rest, 0);
    match Classify(c)
    case SevenBit => Move(true, c, 1, 1)
    case Continuation => Move(false, 0, 1, 0)
    case Lead2 => Move(true, TwoByte(c, At(rest, 1)), 2, 2)
    case Lead3 => Move(true, ThreeByte(c, At(rest, 2), At(rest, 4)), 3, 3)
    case Lead4 => Move(true, Question, 1, 1)
    case Invalid => Move(true, 0, 1, 1)
  }

  /** The loop of iptc.c:49-73 with the input cursor at the start of `rest`
      and `budget` = `buflen - b` bytes still to be counted: it stops once
      the count reaches `buflen`. */
  function Transcode(rest: seq<byte>, budget: nat): (slots: seq<byte>)
    ensures |slots| <= budget
    decreases budget, |rest|
  {
    if budget == 0 then []
    else
      var m := Pass(rest);
      (if m.emits then [m.slot] else [])
        + Transcode(Drop(rest, m.used), if m.counted < budget then budget - m.counted else 0)
  }

  /** `UTF8_to_Char(buf, asc)`: the slots written, never more than `strlen(buf)`. */
  function Utf8ToChar(buf: seq<byte>): (slots: seq<byte>)
    ensures |slots| <= FirstZero(buf)
  {
    Transcode(buf, FirstZero(buf))
  }

  /** The text `printf("%s")` shows of the destination buffer. */
  function Shown(buf: seq<byte>): seq<byte>
  {
    UpToZero(Utf8ToChar(buf))
  }

  // ---------------------------------------------------------------------------
  // Properties of the loop

  /** Bytes in 1..127 are copied one for one. */
  lemma {:induction false} TranscodeAscii(s: seq<byte>)
    requires forall i :: 0 <= i < |s| ==> 0 < s[i] < 0x80
    ensures Transcode(s, |s|) == s
  {
    if |s| > 0 {
      assert Pass(s) == Move(true, s[0], 1, 1);
      assert Drop(s, 1) == s[1..];
      TranscodeAscii(s[1..]);
    }
  }

  /** Pure 7-bit text comes out unchanged. */
  lemma AsciiIdentity(s: seq<byte>)
    requires forall i :: 0 <= i < |s| ==> 0 < s[i] < 0x80
    ensures Utf8ToChar(s) == s
  {
    assert FirstZero(s) == |s|;
    TranscodeAscii(s);
  }

  /** One pass sees only the bytes a zero-filled read returns. */
  lemma PassAgree(x: seq<byte>, y: seq<byte>)
    requires Agree(x, y)
    ensures Pass(x) == Pass(y)
  {
    assert At(x, 0) == At(y, 0);
    assert At(x, 1) == At(y, 1);
    assert At(x, 2) == At(y, 2);
    assert At(x, 4) == At(y, 4);
  }

  /** Buffers that read the same everywhere transcode the same. */
  lemma {:induction false} TranscodeAgree(x: seq<byte>, y: seq<byte>, budget: nat)
    requires Agree(x, y)
    ensures Transcode(x, budget) == Transcode(y, budget)
    decreases budget, |x|
  {
    if budget > 0 {
      PassAgree(x, y);
      var used := Pass(x).used;
      DropAgree(x, y, used);
      TranscodeAgree(Drop(x, used), Drop(y, used), if Pass(x).counted < budget then budget - Pass(x).counted else 0);
    }
  }

  /** Staging the field in a zero-filled buffer does not change the result. */
  lemma StagingIrrelevant(s: seq<byte>, n: nat)
    ensures Utf8ToChar(s + Zeros(n)) == Utf8ToChar(s)
  {
    FirstZeroPadding(s, n);
    PaddingAgrees(s, n);
    TranscodeAgree(s + Zeros(n), s, FirstZero(s));
  }

  lemma {:induction false} FirstZeroPadding(s: seq<byte>, n: nat)
    ensures FirstZero(s + Zeros(n)) == FirstZero(s)
  {
    if |s| > 0 && s[0] != 0 {
      assert (s + Zeros(n))[1..] == s[1..] + Zeros(n);
      FirstZeroPadding(s[1..], n);
    }
  }

  /** Past the end of the buffer every read is a 0, copied as an ASCII byte. */
  lemma {:induction false} TranscodePastEnd(budget: nat)
    ensures Transcode([], budget) == Zeros(budget)
  {
    if budget > 0 {
      assert Pass([]) == Move(true, 0, 1, 1);
      TranscodePastEnd(budget - 1);
    }
  }

  /** A run of continuation bytes is skipped without producing a slot or
      using up the count, wherever it stands in the text. */
  lemma {:induction false} SkipContinuations(conts: seq<byte>, rest: seq<byte>, budget: nat)
    requires forall i :: 0 <= i < |conts| ==> Classify(conts[i]) == Continuation
    ensures Transcode(conts + rest, budget) == Transcode(rest, budget)
    decreases |conts|
  {
    if |conts| > 0 && budget > 0 {
      assert Classify(At(conts + rest, 0)) == Continuation;
      assert Pass(conts + rest) == Move(false, 0, 1, 0);
      assert Drop(conts + rest, 1) == conts[1..] + rest;
      SkipContinuations(conts[1..], rest, budget);
    } else if |conts| == 0 {
      assert conts + rest == rest;
    }
  }

  lemma {:induction false} FirstZeroPrefix(p: seq<byte>, s: seq<byte>)
    requires forall i :: 0 <= i < |p| ==> p[i] != 0
    ensures FirstZero(p + s) == |p| + FirstZero(s)
    decreases |p|
  {
    if |p| > 0 {
      assert (p + s)[1..] == p[1..] + s;
      FirstZeroPrefix(p[1..], s);
    } else {
      assert p + s == s;
    }
  }

  /** A two-byte sequence `110xxxxx 10yyyyyy` yields the low 8 bits of its
      code point, and the rest of the text is transcoded as if on its own. */
  lemma TwoByteSequence(lead: byte, cont: byte, rest: seq<byte>)
    requires Classify(lead) == Lead2 && Classify(cont) == Continuation
    ensures Utf8ToChar([lead, cont] + rest) == [CodePoint2(lead, cont) % 256] + Utf8ToChar(rest)
  {
    var buf := [lead, cont] + rest;
    FirstZeroPrefix([lead, cont], rest);
    assert Pass(buf) == Move(true, TwoByte(lead, cont), 2, 2);
    assert Drop(buf, 2) == rest;
  }

  /** `C3 A9` (U+00E9) yields the single byte `E9`. */
  lemma LatinSmallEAcute()
    ensures Utf8ToChar([0xC3, 0xA9]) == [0xE9]
  {
    TwoByteSequence(0xC3, 0xA9, []);
  }

  /** A lead byte `F0`..`F7` yields `'?'`; its continuation bytes yield no
      character. Because they were not counted in `b`, the loop then runs
      once per skipped byte over the zero tail, so the shown text is `"?"`. */
  lemma FourByteLead(lead: byte, conts: seq<byte>)
    requires Classify(lead) == Lead4
    requires forall i :: 0 <= i < |conts| ==> Classify(conts[i]) == Continuation
    ensures Utf8ToChar([lead] + conts) == [Question] + Zeros(|conts|)
    ensures Shown([lead] + conts) == [Question]
  {
    var buf := [lead] + conts;
    assert buf + [] == buf;
    FourByteInText(lead, conts, buf, [], |conts|);
    TranscodePastEnd(|conts|);
    var out := [Question] + Zeros(|conts|);
    assert FirstZero(out) == 1 by {
      assert out[0] != 0;
      if |out| > 1 {
        assert out[1..][0] == 0;
      }
    }
  }

  /** The first pass over a four-byte lead, with the count the rest of the
      text gives. */
  lemma FourByteFirstPass(buf: seq<byte>, after: seq<byte>, budget: nat)
    requires Classify(At(buf, 0)) == Lead4
    requires Drop(buf, 1) == after && FirstZero(buf) == budget + 1
    ensures Utf8ToChar(buf) == [Question] + Transcode(after, budget)
  {
    assert Pass(buf) == Move(true, Question, 1, 1);
  }

  /** The four-byte case inside a text: a lead `F0`..`F7` and its
      continuation bytes (`front`), then more text. The output is `'?'`, then
      the text after the sequence, transcoded with the count the skipped
      continuation bytes left over (`budget`). That count runs on past the
      end of the text. */
  lemma FourByteInText(lead: byte, conts: seq<byte>, front: seq<byte>, rest: seq<byte>, budget: nat)
    requires Classify(lead) == Lead4
    requires forall i :: 0 <= i < |conts| ==> Classify(conts[i]) == Continuation
    requires front == [lead] + conts && budget == |conts| + FirstZero(rest)
    ensures Utf8ToChar(front + rest) == [Question] + Transcode(rest, budget)
  {
    forall i | 0 <= i < |front|
      ensures front[i] != 0
    {
      if i > 0 {
        assert front[i] == conts[i - 1];
      }
    }
    FirstZeroPrefix(front, rest);
    assert (front + rest)[1..] == conts + rest;
    FourByteFirstPass(front + rest, conts + rest, budget);
    SkipContinuations(conts, rest, budget);
  }

  /** A nonzero ASCII byte with a count of four: the byte, then three zero
      slots past the end. */
  lemma LetterThenPastEnd(c: byte)
    requires c != 0 && Classify(c) == SevenBit
    ensures Transcode([c], 4) == [c, 0, 0, 0]
  {
    assert Pass([c]) == Move(true, c, 1, 1);
    assert Drop([c], 1) == [];
    TranscodePastEnd(3);
    assert Zeros(3) == [0, 0, 0];
  }

  /** U+1F600 followed by an ASCII letter such as `A`: `'?'`, then the
      letter, then one zero slot for each of the three skipped continuation
      bytes. */
  lemma GrinningFaceThenLetter(c: byte)
    requires c != 0 && Classify(c) == SevenBit
    ensures Utf8ToChar([0xF0, 0x9F, 0x98, 0x80, c]) == [Question, c, 0, 0, 0]
  {
    var front: seq<byte> := [0xF0, 0x9F, 0x98, 0x80];
    assert front + [c] == [0xF0, 0x9F, 0x98, 0x80, c];
    assert FirstZero([c]) == 1;
    FourByteInText(0xF0, [0x9F, 0x98, 0x80], front, [c], 4);
    LetterThenPastEnd(c);
  }

  /** A non-empty sequence in front of another is its first element in front
      of the rest of both. */
  lemma FrontSplit(s: seq<byte>, t: seq<byte>)
    requires |s| > 0
    ensures s + t == [s[0]] + (s[1..] + t)
  {
  }

  /** The inductive step of AsciiInText: a byte in 1..127 in front of a run
      already copied is copied in front of it. */
  lemma SevenBitCons(c: byte, buf: seq<byte>, after: seq<byte>, shown: seq<byte>, budget: nat, left: nat)
    requires 0 < c < 0x80 && buf == [c] + after && budget == left + 1
    requires Transcode(after, left) == shown
    ensures Transcode(buf, budget) == [c] + shown
  {
    assert Pass(buf) == Move(true, c, 1, 1);
    assert Drop(buf, 1) == after;
  }

  /** Bytes in 1..127 are copied one for one wherever the text goes on after
      them (`buf` is `s + t`); that text is transcoded with the count (`k`)
      they leave over. */
  lemma {:induction false} AsciiInText(s: seq<byte>, t: seq<byte>, buf: seq<byte>, k: nat, total: nat)
    requires forall i :: 0 <= i < |s| ==> 0 < s[i] < 0x80
    requires buf == s + t && total == |s| + k
    ensures Transcode(buf, total) == s + Transcode(t, k)
    decreases |s|
  {
    if |s| == 0 {
      assert buf == t;
    } else {
      var after := s[1..] + t;
      var done := Transcode(t, k);
      FrontSplit(s, t);
      FrontSplit(s, done);
      AsciiInText(s[1..], t, after, k, total - 1);
      SevenBitCons(s[0], buf, after, s[1..] + done, total, total - 1);
    }
  }

  /** A lead byte `F8`..`FF` matches none of the tests: the loop counts one
      byte and moves to the next slot, so the skipped slot keeps the caller's
      0. */
  lemma InvalidLead(lead: byte, rest: seq<byte>)
    requires Classify(lead) == Invalid
    ensures Utf8ToChar([lead] + rest) == [0] + Utf8ToChar(rest)
  {
    assert FirstZero([lead] + rest) == 1 + FirstZero(rest) by {
      assert ([lead] + rest)[1..] == rest;
    }
    assert Drop([lead] + rest, 1) == rest;
  }

  /** After 7-bit text, a lead byte `F8`..`FF` leaves a 0 slot, and `%s`
      stops there: the text before it is shown and nothing after it. */
  lemma InvalidLeadEndsText(s: seq<byte>, lead: byte, rest: seq<byte>)
    requires forall i :: 0 <= i < |s| ==> 0 < s[i] < 0x80
    requires Classify(lead) == Invalid
    ensures Utf8ToChar(s + [lead] + rest) == s + [0] + Utf8ToChar(rest)
    ensures Shown(s + [lead] + rest) == s
  {
    var tail := [lead] + rest;
    assert s + [lead] + rest == s + tail;
    FirstZeroPrefix(s, tail);
    InvalidLead(lead, rest);
    AsciiInText(s, tail, s + tail, FirstZero(tail), FirstZero(s + tail));
    var after := [0] + Utf8ToChar(rest);
    assert s + [0] + Utf8ToChar(rest) == s + after;
    FirstZeroPrefix(s, after);
    assert (s + after)[..|s|] == s;
  }

  /** `A FF B`: the slots are `A`, 0, `B`, and only `A` is shown. */
  lemma InvalidLeadHidesRest()
    ensures Utf8ToChar([0x41, 0xFF, 0x42]) == [0x41, 0, 0x42]
    ensures Shown([0x41, 0xFF, 0x42]) == [0x41]
  {
    assert [0x41] + [0xFF] + [0x42] == [0x41, 0xFF, 0x42];
    InvalidLeadEndsText([0x41], 0xFF, [0x42]);
    AsciiIdentity([0x42]);
  }

  /** The three-byte case consumes three bytes but combines the third and the
      fifth; the text after it is transcoded as if on its own. */
  lemma ThreeByteSequence(lead: byte, second: byte, third: byte, rest: seq<byte>)
    requires Classify(lead) == Lead3
    requires second != 0 && third != 0
    ensures Utf8ToChar([lead, second, third] + rest)
         == [ThreeByte(lead, third, At(rest, 1))] + Utf8ToChar(rest)
  {
    var buf := [lead, second, third] + rest;
    FirstZeroPrefix([lead, second, third], rest);
    assert At(buf, 4) == At(rest, 1);
    assert Pass(buf) == Move(true, ThreeByte(lead, third, At(rest, 1)), 3, 3);
    assert Drop(buf, 3) == rest;
  }

  /** The euro sign `E2 82 AC` (U+20AC, low byte `AC`) comes out as a 0 slot:
      the fifth byte read is past the end, and the third contributes `AC & 3`. */
  lemma EuroSignAsWritten()
    ensures Utf8ToChar([0xE2, 0x82, 0xAC]) == [0]
    ensures Shown([0xE2, 0x82, 0xAC]) == []
  {
    var euro: seq<byte> := [0xE2, 0x82, 0xAC];
    ThreeByteSequence(0xE2, 0x82, 0xAC, []);
    assert euro + [] == euro;
  }
}

=== FILE: xmp.dfy ===
/** `ShowXmp` (iptc.c:267-297): the printable-text dump of an XMP packet.

    The C scans every byte once, building an output line of at most 100
    characters. A two-bit flag records whether the current line holds a
    non-space printable byte (bit 0) and whether the previously flushed line
    did (bit 1); a flushed line is printed only when the flag is nonzero. */
module Xmp {
  import opened Bytes

  const Newline: byte := 10
  const Space: byte := 32
  const LineLimit: nat := 100

  /** `32 <= c < 128`: copied into the line as it is. */
  predicate Printable(c: byte)
  {
    32 <= c < 128
  }

  /** What one byte adds to the output line: itself when printable, `'?'`
      for any other byte except a newline, which adds nothing. */
  function Glyph(c: byte): (g: string)
    ensures |g| == if c == Newline then 0 else 1
    ensures forall i :: 0 <= i < |g| ==> 32 <= g[i] as int < 128
  {
    if Printable(c) then [ToChar(c)]
    else if c != Newline then "?"
    else ""
  }

  /** A byte that marks its line as worth printing: printable and not a space.
      A `'?'` substituted for another byte does not count. */
  predicate Marks(c: byte)
  {
    Printable(c) && c != Space
  }

  /** `NonBlank |= 1`, on the values 0..3 the flag takes. */
  function MarkContent(nb: nat): nat
  {
    nb - nb % 2 + 1
  }

  /** `NonBlank = (NonBlank & 1) << 1`: the current line's bit moves up. */
  function CarryContent(nb: nat): nat
  {
    nb % 2 * 2
  }

  lemma OrLowBitSet(x: bv8)
    ensures (x | 1) as int == x as int - x as int % 2 + 1
  {
  }

  lemma LowBitShifted(x: bv8)
    ensures ((x & 1) << 1) as int == x as int % 2 * 2
  {
  }

  /** The flag updates are the C's bit operations. */
  lemma FlagBits(x: bv8)
    ensures MarkContent(x as int) == (x | 1) as int
    ensures CarryContent(x as int) == ((x & 1) << 1) as int
  {
    OrLowBitSet(x);
    LowBitShifted(x);
  }

  /** A line `puts` may print: at most 100 characters, each in 32..127, so
      in particular no newline. */
  predicate Printed(s: string)
  {
    |s| <= LineLimit && forall i :: 0 <= i < |s| ==> 32 <= s[i] as int < 128
  }

  /** The scan between two bytes: `OutLine` up to `OutLineChars`,
      `NonBlank`, and the lines printed so far. */
  datatype XmpState = XmpState(line: string, nonBlank: nat, out: seq<string>)

  const Start := XmpState([], 0, [])

  /** One iteration of the loop of iptc.c:279-296. */
  function Step(st: XmpState, c: byte): (r: XmpState)
    ensures Printed(st.line) && |st.line| < LineLimit ==> |r.line| < LineLimit && Printed(r.line)
    ensures st.nonBlank <= 3 ==> r.nonBlank <= 3
    ensures r.out == st.out || r.out == st.out + [st.line + Glyph(c)]
    ensures Printed(st.line) && |st.line| < LineLimit ==> Printed(st.line + Glyph(c))
  {
    var line := st.line + Glyph(c);
    var nb := if Marks(c) then MarkContent(st.nonBlank) else st.nonBlank;
    if c == Newline || |line| >= LineLimit then
      XmpState([], CarryContent(nb), if nb != 0 then st.out + [line] else st.out)
    else
      XmpState(line, nb, st.out)
  }

  /** The state after the loop has consumed `data`. */
  function Scan(data: seq<byte>): (st: XmpState)
    ensures |st.line| < LineLimit && Printed(st.line)
    ensures st.nonBlank <= 3
    ensures forall i :: 0 <= i < |st.out| ==> Printed(st.out[i])
    decreases |data|
  {
    if data == [] then Start
    else Step(Scan(data[..|data| - 1]), data[|data| - 1])
  }

  /** The lines `ShowXmp` prints for a section holding `data`. */
  function ShowXmp(data: seq<byte>): (lines: seq<string>)
    ensures forall i :: 0 <= i < |lines| ==> Printed(lines[i])
  {
    Scan(data).out
  }

  // ---------------------------------------------------------------------------
  // A reference reading without the bit flag

  /** A flushed line and whether it holds a non-space printable byte. */
  datatype Flushed = Flushed(text: string, content: bool)

  /** The text split into flushed lines, before any is suppressed, and the
      line still being built. */
  datatype Split = Split(text: string, content: bool, done: seq<Flushed>)

  function SplitStep(s: Split, c: byte): Split
  {
    var text := s.text + Glyph(c);
    var content := s.content || Marks(c);
    if c == Newline || |text| >= LineLimit then Split([], false, s.done + [Flushed(text, content)])
    else Split(text, content, s.done)
  }

  function Lines(data: seq<byte>): Split
    decreases |data|
  {
    if data == [] then Split([], false, [])
    else SplitStep(Lines(data[..|data| - 1]), data[|data| - 1])
  }

  /** Whether the last flushed line held content. */
  predicate LastContent(done: seq<Flushed>)
  {
    |done| > 0 && done[|done| - 1].content
  }

  /** The flushed lines that are printed: a line is printed when it, or the
      line flushed just before it, holds a non-space printable byte. Runs of
      blank lines therefore collapse to a single empty line. */
  function Kept(done: seq<Flushed>): seq<string>
    decreases |done|
  {
    if done == [] then []
    else
      var last := done[|done| - 1];
      var before := done[..|done| - 1];
      Kept(before) + (if last.content || LastContent(before) then [last.text] else [])
  }

  /** The flag value that says "the previous flushed line had content" in
      bit 1 and "this line has content" in bit 0. */
  function Flag(s: Split): nat
  {
    (if LastContent(s.done) then 2 else 0) + (if s.content then 1 else 0)
  }

  /** The C's state stands for the reference state. */
  predicate Represents(st: XmpState, s: Split)
  {
    st.line == s.text && st.nonBlank == Flag(s) && st.out == Kept(s.done)
  }

  /** Flushing one more line prints it under the reference rule. */
  lemma KeptFlush(done: seq<Flushed>, seg: Flushed)
    ensures Kept(done + [seg]) == Kept(done) + (if seg.content || LastContent(done) then [seg.text] else [])
    ensures LastContent(done + [seg]) == seg.content
  {
    assert (done + [seg])[..|done|] == done;
  }

  /** One iteration keeps the correspondence. */
  lemma StepRepresents(st: XmpState, s: Split, c: byte)
    requires Represents(st, s)
    ensures Represents(Step(st, c), SplitStep(s, c))
  {
    var text := s.text + Glyph(c);
    var content := s.content || Marks(c);
    if c == Newline || |text| >= LineLimit {
      KeptFlush(s.done, Flushed(text, content));
    }
  }

  /** The flag's two bits encode exactly "this line has content" and "the
      previous flushed line had content", so the C prints the lines `Kept`
      selects, and its partial line is the reference's. */
  lemma {:induction false} ScanMatchesLines(data: seq<byte>)
    ensures Scan(data).line == Lines(data).text
    ensures Scan(data).nonBlank == Flag(Lines(data))
    ensures Scan(data).out == Kept(Lines(data).done)
    decreases |data|
  {
    if data != [] {
      var prefix := data[..|data| - 1];
      ScanMatchesLines(prefix);
      StepRepresents(Scan(prefix), Lines(prefix), data[|data| - 1]);
    }
  }

  /** What `ShowXmp` prints is the reference selection of flushed lines. */
  lemma ShowXmpKept(data: seq<byte>)
    ensures ShowXmp(data) == Kept(Lines(data).done)
  {
    ScanMatchesLines(data);
  }

  /** A trailing line that neither ends in a newline nor reaches 100
      characters is never printed: appending its bytes prints nothing. */
  lemma {:induction false} PartialLineNotPrinted(data: seq<byte>, tail: seq<byte>)
    requires forall i :: 0 <= i < |tail| ==> tail[i] != Newline
    requires |Scan(data).line| + |tail| < LineLimit
    ensures ShowXmp(data + tail) == ShowXmp(data)
    ensures |Scan(data + tail).line| == |Scan(data).line| + |tail|
    decreases |tail|
  {
    if tail == [] {
      assert data + tail == data;
    } else {
      var init := tail[..|tail| - 1];
      PartialLineNotPrinted(data, init);
      assert (data + tail)[..|data + tail| - 1] == data + init;
      assert (data + tail)[|data + tail| - 1] == tail[|tail| - 1];
      assert |Glyph(tail[|tail| - 1])| == 1;
    }
  }

  /** Two spaces and a newline print nothing. */
  lemma BlankLineSuppressed()
    ensures ShowXmp([Space, Space, Newline]) == []
  {
    var data: seq<byte> := [Space, Space, Newline];
    assert [Space][..0] == [];
    assert Scan([Space]) == XmpState(" ", 0, []);
    assert [Space, Space][..1] == [Space];
    assert Scan([Space, Space]) == XmpState("  ", 0, []);
    assert data[..2] == [Space, Space];
  }

  /** `A` and a newline print the single line `A`. */
  lemma SingleLinePrinted()
    ensures ShowXmp([65, Newline]) == ["A"]
  {
    var data: seq<byte> := [65, Newline];
    assert [65 as byte][..0] == [];
    assert Glyph(65) == "A";
    assert Scan([65]) == XmpState("A", 1, []);
    assert data[..1] == [65];
    assert "A" + Glyph(Newline) == "A";
    assert Scan(data) == XmpState([], 2, ["A"]);
  }

  /** After a line with content, one empty line is still printed: the flag
      carries the previous line's bit. */
  lemma EmptyLineAfterContent()
    ensures ShowXmp([65, Newline, Newline]) == ["A", ""]
  {
    var data: seq<byte> := [65, Newline, Newline];
    assert data[..2] == [65, Newline];
    SingleLinePrinted();
    assert Scan([65, Newline]) == XmpState("", 2, ["A"]);
  }
}
